=== FILE: README.md ===
# Multiselect dropdown: selection state in Dafny

This project models the selection logic of the Angular multiselect dropdown
`MultiselectDropdown` in `dist/dropdown/dropdown.component.js`, and proves
properties of the model. The model covers:

- the selection (`model`), an ordered list of option ids;
- the option list and its two-level groups. A child names its group through
  `parentId`. The group's own option is the one whose id is that parentId.
- the settings and texts that steer selection and the button caption;
- the events the component emits (`onAdded`, `onRemoved`,
  `selectionLimitReached`, `dropdownOpened`, `dropdownClosed`).

Every operation is a pure function from a state to a new state plus the events
it emits, in emission order (`Dropdown.Step`). `numSelected` and the title are
functions of the state (`Dropdown.NumSelected`, `Dropdown.Title`): the
component recomputes them whenever the model changes.

Files:

- `seqs.dfy` (module `Seqs`): the array primitives the component uses
  (`indexOf`, `splice(i, 1)`, the two `filter` shapes), plus the facts about
  them that the proofs use.
- `text.dfy` (module `Text`): `join(', ')` and the decimal rendering of the
  count, each with a reading that undoes it.
- `dropdown.dfy` (module `Dropdown`): the data model and every operation.
- `selection_props.dfy` (module `SelectionProps`): what a toggle does to the
  selection and its groups.
  - It states which ids a select appends, and, on a model without repeated
    ids, exactly which ids a deselect removes.
  - The limit either rejects or evicts.
  - On well-formed option lists (unique ids, non-zero parentIds, and no
    parent that is itself a child), the group invariant (a group's id is selected exactly when all
    its children are, with no id repeated) is preserved by every toggle when
    the limit does not evict.
  - Toggling an unselected non-parent option with a non-zero parentId on
    and off, under the limit, on a group-consistent model, restores the
    state.
- `bulk_props.dfy` (module `BulkProps`): properties of check-all,
  uncheck-all, the count, the title, validation, form writes, the dropdown
  toggle and reloads.
- `scenarios.dfy` (module `Scenarios`): concrete runs on a small grouped
  option list.

Behaviour the source has and the model keeps (each is stated by a lemma):

- `parents` holds every numeric parentId, zero included. On a select,
  `setSelected` tests `option.parentId` for truthiness, so a parentId of 0
  is treated as no parent. On a deselect the parent test is
  `option.parentId && model.indexOf(option.parentId)` compared with `>= 0`.
  For a parentId of 0 the `&&` yields 0 itself, which passes. The deselect
  then splices out position 0 of the model as it stands after the option's
  own removal, and announces `Removed(0)` whatever id was there. Option 7
  with parentId 0, deselected from `[7, 5, 9]`, leaves `[9]`
  (`SelectionProps.ZeroParentDropsHead`).
- The limit compares the length of the whole model, parent ids included.
  `numSelected` leaves parent ids out.
- With `autoUnselect`, an eviction drops the oldest entry and does not touch
  its group. That can leave a group id selected while one of its children is
  not (`Scenarios.EvictionBreaksGroup`).
- A select pushes the parent id whenever the siblings are all selected,
  even if the parent id is selected already. After a filtered uncheck-all
  has removed one child, reselecting it puts the parent id in the model
  twice. A deselect of that child then removes only one copy, so the parent
  stays selected without it (`Scenarios.DuplicateParentSurvivesDeselect`).
- The limit is tested once, before the option's own push. Selecting a
  parent then appends all its missing children without a second test, so
  the model can grow past `selectionLimit`
  (`Scenarios.ParentOvershootsLimit`).
- `closeOnSelect` toggles visibility; it does not force the dropdown closed.
- `checkAll` ignores the limit and `isLabel`.
- The title lists names in option order, not in selection order.

## Model

| member | source | states |
|---|---|---|
| Dropdown.Parents | dist/dropdown/dropdown.component.js:91-93 | an id is in `parents` exactly when some option has it as numeric parentId; no longer than the option list |
| Dropdown.ChildIds | dist/dropdown/dropdown.component.js:165 | an id is listed exactly when it belongs to an option whose parentId is the given id and it is (or, for the select case, is not) in the model |
| SelectionProps.ChildIdsInOrder | dist/dropdown/dropdown.component.js:165 | the listed child ids are a subsequence of the option ids, so they come in option order |
| Dropdown.NewIds | dist/dropdown/dropdown.component.js:240-248 | an id is picked exactly when some option has it and it is not yet selected |
| Dropdown.NewIdsIsFilter | dist/dropdown/dropdown.component.js:242-248 | the picked ids are the option ids in option order, one per option, with the selected ones filtered out |
| Dropdown.SelectedOptions | dist/dropdown/dropdown.component.js:222-225 | an option is kept exactly when it is in the list and its id is selected |
| Dropdown.ToggleDropdown | dist/dropdown/dropdown.component.js:142-145 | visibility flips and nothing else changes; `Opened` is emitted when the dropdown becomes visible, `Closed` otherwise |
| Dropdown.Finish | dist/dropdown/dropdown.component.js:202-204 | with `closeOnSelect` the visibility flips and exactly one event reporting the new visibility follows the events so far; otherwise nothing changes and nothing is added |
| Dropdown.ParentIndex | dist/dropdown/dropdown.component.js:159-160 | the parent test passes only for a present parentId; for a non-zero one it passes exactly when the parent is selected and points at it; for zero it yields position 0 |
| Dropdown.Deselect | dist/dropdown/dropdown.component.js:155-168 | a deselect changes only the model and visibility, shrinks the model and emits the option's removal first |
| Dropdown.Select | dist/dropdown/dropdown.component.js:170-188 | a select under the limit changes only the model and visibility and emits the option's addition first |
| Dropdown.Evict | dist/dropdown/dropdown.component.js:190-195 | an eviction changes only the model and visibility and emits the option's addition first |
| Dropdown.SetSelected | dist/dropdown/dropdown.component.js:149-208 | options, settings, texts and search text are untouched; something is always emitted; toggling a selected option emits its removal first and shrinks the model; a toggle that does not add the option changes nothing |
| Dropdown.IsSelected | dist/dropdown/dropdown.component.js:146-148 | true exactly when the option's id occurs in the model |
| Dropdown.NumSelected | dist/dropdown/dropdown.component.js:209-212 | the count never exceeds the model length |
| Dropdown.Validate | dist/dropdown/dropdown.component.js:128-134 | no error exactly when the model is non-empty |
| Dropdown.PreventCheckboxCheck | dist/dropdown/dropdown.component.js:269-275 | a checkbox tick is prevented exactly when the option is unselected and `setSelected` would refuse it with only the limit event |
| Dropdown.WriteValue | dist/dropdown/dropdown.component.js:104-111 | only the model changes; an option is selected afterwards exactly when a value was written and holds its id; the written state validates exactly when a non-empty list was written |
| Dropdown.CheckAll | dist/dropdown/dropdown.component.js:238-252 | the old model is kept as a prefix, every visible option's id is selected afterwards, and the appended ids are exactly the visible options' ids, in option order, that were not selected before |
| Dropdown.UncheckAll | dist/dropdown/dropdown.component.js:253-268 | the new model is a subsequence of the old; with a filter an id survives exactly when it was selected and no filtered option has it; with a filter every copy of a surviving id stays and none of a filtered one; with no filter nothing survives |
| Dropdown.OnOptionsChange | dist/dropdown/dropdown.component.js:88-99 | a null option list becomes empty; on the first change, or without `uncheckAllOnReload`, the selection stays and nothing is emitted |
| Seqs.IndexOf | dist/dropdown/dropdown.component.js:155 | -1 exactly when the value is absent; otherwise the position of its first occurrence |
| Seqs.RemoveAt | dist/dropdown/dropdown.component.js:157 | drops exactly the element at the position and keeps the rest in order; a position past the end changes nothing |
| Seqs.FilterOut | dist/dropdown/dropdown.component.js:166 | keeps exactly the elements absent from the exclusion list, never lengthening |
| Seqs.KeepOnly | dist/dropdown/dropdown.component.js:257-265 | keeps exactly the elements present in the list, never lengthening |
| Seqs.KeepOnlyMultiset | dist/dropdown/dropdown.component.js:257-265 | every copy of a kept element stays and no copy of any other |
| Seqs.KeepOnlyIsSubsequence | dist/dropdown/dropdown.component.js:257-265 | the kept elements stay in their order |
| Seqs.RemoveFirstIsFilterOut | dist/dropdown/dropdown.component.js:155-157 | on a duplicate-free model, splicing out the first occurrence is filtering the value out |
| Text.SplitJoin | dist/dropdown/dropdown.component.js:226-227 | a non-empty list of comma-free names is recovered by splitting its `join(', ')` |
| Text.JoinLength | dist/dropdown/dropdown.component.js:226-227 | a non-empty join is as long as its items plus one separator per neighbouring pair |
| Text.JoinItemAt | dist/dropdown/dropdown.component.js:226-227 | each item sits at its offset in the join, whatever characters it holds |
| Text.JoinSepAfter | dist/dropdown/dropdown.component.js:226-227 | every item but the last is followed by the separator in the join |
| Text.JoinListsAt | dist/dropdown/dropdown.component.js:226-227 | every item of a join sits at its offset and, unless last, is followed by the separator, whatever characters the items hold |
| Text.NatToString | dist/dropdown/dropdown.component.js:230 | a non-empty string of decimal digits with no leading zero |
| Text.DecimalRoundTrip | dist/dropdown/dropdown.component.js:230 | reading the rendered count back gives the count |
| Text.LeadingNumeral | dist/dropdown/dropdown.component.js:230-232 | the count followed by a non-digit is read back from the leading digits |
| SelectionProps.RemoveRelatedIsFilter | dist/dropdown/dropdown.component.js:159-168 | on a model without repeated ids and for a parentId other than 0, after the option's own removal, the parent step or the children step removes exactly the rest of its group |
| SelectionProps.RemoveRelatedEvents | dist/dropdown/dropdown.component.js:159-168 | for a parentId other than 0, the step after the option's own removal emits one `Removed` per remaining id of the group, in group order, and nothing else |
| SelectionProps.DeselectRemovesGroup | dist/dropdown/dropdown.component.js:155-168 | on a model without repeated ids, deselecting removes exactly the option, its selected parent or (for a parent) its selected children; survivors keep their order; one `Removed` per removed id, the option first; no `Added` |
| SelectionProps.DeselectEvents | dist/dropdown/dropdown.component.js:155-168 | on a model without repeated ids and for a parentId other than 0, the events of a deselect are exactly one `Removed` per id of its group, in group order, followed only by the `closeOnSelect` toggle's report |
| SelectionProps.AddRelatedAppends | dist/dropdown/dropdown.component.js:174-187 | the step after the option's own push only appends, and its events are one `Added` per appended id, in order |
| SelectionProps.SelectAppendsGroup | dist/dropdown/dropdown.component.js:170-188 | under the limit, a toggle only appends, starting with the option right after the old model; the events are one `Added` per appended id, in order, followed only by the `closeOnSelect` toggle's report; nothing is removed |
| SelectionProps.SelectEvents | dist/dropdown/dropdown.component.js:170-204 | a select under the limit is the pushes followed by the close-on-select step; its announced ids are the option's followed by the related ones |
| SelectionProps.AddRelatedCases | dist/dropdown/dropdown.component.js:174-187 | after the push: the parent is appended when the siblings are all in, a parent's missing children are appended in option order (through `SelectionProps.ChildIdsInOrder`), and nothing is appended otherwise |
| SelectionProps.SelectGroupShape | dist/dropdown/dropdown.component.js:174-187 | under the limit: the parent follows when that completes the group; for a parent every missing child follows, and what follows is a subsequence of the option ids; otherwise nothing follows the option |
| SelectionProps.SelectNonParentShape | dist/dropdown/dropdown.component.js:172-180 | on a group-consistent model, under the limit, for a non-parent option whose parentId is not 0, selecting appends its id and at most its parent, which was not selected before |
| SelectionProps.LimitRejects | dist/dropdown/dropdown.component.js:196-199 | at the limit without auto-unselect, nothing changes and only the limit event is emitted, carrying the model length |
| SelectionProps.LimitEvictsOldest | dist/dropdown/dropdown.component.js:189-195 | at the limit with auto-unselect, the option is appended and the oldest entry is shifted out; the events are exactly `Added` for the option, `Removed` for the old head, then only the `closeOnSelect` toggle's report; the length stays |
| SelectionProps.ChildIdsNoDup | dist/dropdown/dropdown.component.js:165 | with unique option ids, the listed child ids are distinct |
| SelectionProps.SelectChildKeeps | dist/dropdown/dropdown.component.js:174-180 | on well-formed options, selecting a child keeps the group invariant |
| SelectionProps.SelectParentKeeps | dist/dropdown/dropdown.component.js:181-187 | on well-formed options, selecting a parent keeps the group invariant |
| SelectionProps.SelectPlainKeeps | dist/dropdown/dropdown.component.js:172-173 | on well-formed options, selecting an option outside every group keeps the group invariant |
| SelectionProps.DeselectKeeps | dist/dropdown/dropdown.component.js:155-168 | on well-formed options, deselecting any option keeps the group invariant |
| SelectionProps.DeselectChildKeeps | dist/dropdown/dropdown.component.js:159-163 | on well-formed options, deselecting a child drops the parent too, keeping the group invariant |
| SelectionProps.DeselectParentKeeps | dist/dropdown/dropdown.component.js:164-168 | on well-formed options, deselecting a parent drops all its selected children, keeping the group invariant |
| SelectionProps.DeselectPlainKeeps | dist/dropdown/dropdown.component.js:155-158 | on well-formed options, deselecting an option outside every group keeps the group invariant |
| SelectionProps.GroupInvariantPreserved | dist/dropdown/dropdown.component.js:149-208 | for well-formed two-level options and no evicting limit, any toggle keeps the model duplicate-free with each group id selected exactly when all its children are |
| SelectionProps.ToggleTwiceRestores | dist/dropdown/dropdown.component.js:155-188 | toggling an unselected non-parent option with a non-zero parentId on and off, under the limit, on a group-consistent model, restores the exact state; the removals announced equal the additions announced |
| SelectionProps.RemoveRelatedShape | dist/dropdown/dropdown.component.js:159-163 | the parent step removes a trailing parent id, or nothing when no parent is selected |
| SelectionProps.ZeroParentDropsHead | dist/dropdown/dropdown.component.js:159-162 | with parentId 0, a deselect also removes position 0 of the rest and announces `Removed(0)` |
| SelectionProps.ZeroParentRoundTripLosesHead | dist/dropdown/dropdown.component.js:155-180 | with parentId 0, toggling on and off loses the oldest selected id |
| Scenarios.LastChildCompletesGroup | dist/dropdown/dropdown.component.js:174-180 | selecting both children of a group one after the other appends the group id after the second |
| Scenarios.LimitOneRejects | dist/dropdown/dropdown.component.js:196-199 | a limit of one refuses a second option and reports a count of one |
| Scenarios.LimitOneEvicts | dist/dropdown/dropdown.component.js:190-195 | a limit of one with auto-unselect swaps the selected option for the new one |
| Scenarios.EvictionBreaksGroup | dist/dropdown/dropdown.component.js:190-195 | an eviction can leave a group id selected without one of its children |
| Scenarios.ParentOvershootsLimit | dist/dropdown/dropdown.component.js:171-187 | at a limit of two with one option selected, selecting the group appends both its children, leaving four entries |
| Scenarios.DuplicateParentSurvivesDeselect | dist/dropdown/dropdown.component.js:155-187 | after a filtered uncheck-all of one child, reselecting it repeats the parent id; deselecting it again removes one copy only, leaving the parent selected without the child |
| BulkProps.CheckAllAppends | dist/dropdown/dropdown.component.js:238-252 | check-all announces exactly the ids it appends, in order, removes nothing and changes nothing but the model |
| BulkProps.CheckAllIdempotent | dist/dropdown/dropdown.component.js:238-249 | a second check-all changes and emits nothing |
| BulkProps.NewIdsCovered | dist/dropdown/dropdown.component.js:242-248 | nothing is picked once every option's id is selected |
| BulkProps.UncheckAllRemovesVisible | dist/dropdown/dropdown.component.js:253-268 | the kept ids and the announced ids together are the old model as a multiset, so every removed copy is announced once; the announced ids keep their model order; each announced id was selected and is gone; nothing is added and only the model changes |
| BulkProps.NoFilterMeansEverything | dist/dropdown/dropdown.component.js:235-241 | with search off, paging info on or an empty search text, check-all selects every option and uncheck-all clears the model |
| BulkProps.ReloadUnchecksAll | dist/dropdown/dropdown.component.js:95-99 | a reload with `uncheckAllOnReload` and no filter clears the model and announces every old entry |
| BulkProps.NumSelectedExcludesParents | dist/dropdown/dropdown.component.js:209-212 | count plus selected parent ids is the model length; the count is the length exactly when no parent id is selected, and zero exactly when only parent ids are |
| BulkProps.NumSelectedIgnoresOrder | dist/dropdown/dropdown.component.js:209-212 | the count depends only on the multiset of selected ids |
| BulkProps.SelectedOptionsByMembership | dist/dropdown/dropdown.component.js:222-225 | the listed options depend only on which ids are selected |
| BulkProps.TitleIgnoresSelectionOrder | dist/dropdown/dropdown.component.js:213-234 | reordering the selection never changes the title |
| BulkProps.TitleFromParts | dist/dropdown/dropdown.component.js:213-234 | the title depends only on the count, the model length and the listed options |
| BulkProps.SelectedOptionsInOrder | dist/dropdown/dropdown.component.js:222-225 | the listed options appear in option-list order |
| BulkProps.TitleDefaultWhenNothingCounted | dist/dropdown/dropdown.component.js:215-217 | with a fixed title, or only parent ids selected, the title is the default text |
| BulkProps.TitleAllSelected | dist/dropdown/dropdown.component.js:218-220 | with something counted, the all-selected flag and as many model entries as options, the title is the all-selected text |
| BulkProps.TitleJoinsSelectedNames | dist/dropdown/dropdown.component.js:221-228 | within the item limit, for any names, the `k`-th selected option's name sits at its offset in the title, a ", " follows every name but the last, and the title has no other characters |
| BulkProps.TitleListsSelectedNames | dist/dropdown/dropdown.component.js:221-228 | within the item limit, when no option name holds a comma, the title splits back into the selected options' names in option order |
| BulkProps.TitleShowsCount | dist/dropdown/dropdown.component.js:229-233 | past the item limit the title is the count in decimal, a space, and the singular text for one or the plural text otherwise |
| BulkProps.ToggleFlipsIsSelected | dist/dropdown/dropdown.component.js:146-195 | a toggle the limit does not refuse flips `isSelected` for that option: deselects (parentId 0 included), selects under the limit and auto-unselect evictions |
| BulkProps.WriteValueReplaces | dist/dropdown/dropdown.component.js:104-111 | the last form write wins; writing the current model back changes nothing; clearing resets the count to zero and the title to the default text |
| BulkProps.ToggleDropdownTwice | dist/dropdown/dropdown.component.js:142-145 | toggling twice restores the state and emits one opened and one closed event |

Some operations are stated through lemmas rather than their own contract:

- `Dropdown.Title` (`updateTitle`): `BulkProps.TitleDefaultWhenNothingCounted`,
  `TitleAllSelected`, `TitleJoinsSelectedNames`, `TitleListsSelectedNames`,
  `TitleShowsCount`, `TitleIgnoresSelectionOrder` and `TitleFromParts`.
- `Dropdown.SearchFilterApplied`: the `Dropdown.UncheckAll` contract and
  `BulkProps.NoFilterMeansEverything`.
- `Dropdown.AddRelated` (the select's parent and children pushes):
  `SelectionProps.AddRelatedAppends` and `AddRelatedCases`.
- `Dropdown.RemoveRelated` (the deselect's parent and children removals):
  `SelectionProps.RemoveRelatedIsFilter`, `RemoveRelatedShape` and
  `ZeroParentDropsHead`.

## Left out

- The DOM side of the component is not part of this model: `onClick`, `getItemStyle`, the template, the decorators and `stopPropagation`/`preventDefault`. `PreventCheckboxCheck` returns the decision instead of calling `preventDefault`.
- The Angular plumbing is not part of this model: `registerOnChange`, `registerOnTouched`, `setDisabledState`, `registerOnValidatorChange` and the `ngDoCheck` differ. `numSelected` and the title are derived from the state, where the component caches them after each model change.
- `onModelChange` and `onModelTouched` are callbacks into form code that cannot be seen here, so they are left out. So is the defensive copy `model.slice()`, because values have no identity in the model.
- Events are modelled as a list. The `EventEmitter` objects are not.
- `MultiSelectSearchFilter` is not part of this model. Its output for the current text is a parameter (`filtered`) of check-all, uncheck-all and reload.
- `runPagingFilter` and `clearSearch` only emit an event or reset the search text, so they are left out.
- `ngOnInit` is left out. Its `Object.assign` merges user settings into the defaults; here a state holds already-merged settings, and `DefaultSettings`/`DefaultTexts` record the constructor defaults.
- Settings and texts that only affect rendering are left out.
- A texts change re-running `updateTitle` is left out, because the title is always derived from the current texts.
- `dist/dropdown/dropdown.module.js` (the NgModule declaration) holds no logic and is not modelled.
- An explicit `null` parentId is not modelled: parentId is either absent or a number. Non-integer ids, and the `NaN` or non-number settings JavaScript would allow, are not modelled either.
- The model is always a list. The undefined model before the first `writeValue` is not modelled; `setSelected` and `validate` treat it as empty anyway.
- Dropdown.NumSelected: its own contract states only the bound. The exact split between counted and parent ids is stated by `BulkProps.NumSelectedExcludesParents`.
- SelectionProps.GroupInvariantPreserved: does not cover an evicting limit, because the source breaks the invariant there (`Scenarios.EvictionBreaksGroup`). It speaks of toggles only: a filtered uncheck-all can remove a child and keep its parent, which breaks the invariant too (`Scenarios.DuplicateParentSurvivesDeselect`).
- SelectionProps.ToggleTwiceRestores: does not cover a parent option. Its deselect also drops children that were selected before, so the source does not restore the state there. It does not cover a parentId of 0 either (`SelectionProps.ZeroParentRoundTripLosesHead` shows the oldest entry is lost), nor a model that is not group-consistent, where a child's deselect takes a parent selected before it.
- SelectionProps.DeselectRemovesGroup: does not cover a parentId of 0, which `SelectionProps.ZeroParentDropsHead` covers instead.
- SelectionProps.DeselectRemovesGroup: assumes a model without repeated ids. The source can repeat a parent id (a filtered uncheck-all of one child, then a reselect of it), and a deselect then removes only one copy (`Scenarios.DuplicateParentSurvivesDeselect`).
- SelectionProps.DeselectEvents: assumes a model without repeated ids and a parentId other than 0, for the reasons given for `SelectionProps.DeselectRemovesGroup`.
- SelectionProps.RemoveRelatedIsFilter: assumes a model without repeated ids, for the same reason: with a repeated parent id, splicing one copy out is not filtering the id out. It also assumes a parentId other than 0, which `SelectionProps.ZeroParentDropsHead` covers: there the splice takes position 0 whatever it holds.
- SelectionProps.SelectNonParentShape: assumes a group-consistent model, room under the limit and a parentId other than 0. On a model that is not group-consistent the parent can already be selected and is appended again (`Scenarios.ReselectAppendsParentAgain`). At the limit the eviction path applies instead (`SelectionProps.LimitEvictsOldest`). A parentId of 0 is never truthy, so nothing beyond the option is appended, but an option with id 0 may already be selected.
- BulkProps.ToggleFlipsIsSelected: assumes a model without repeated ids when the option is selected. A repeated option id survives the splice of its first copy, so the toggle does not unselect it.
- SelectionProps.ZeroParentDropsHead: assumes a model without repeated ids, so that the option's own removal is filtering its id out.
- BulkProps.TitleListsSelectedNames: needs option names without commas, because a comma inside a name cannot be told apart from the separator. `BulkProps.TitleJoinsSelectedNames` states the layout of the title for any names.

=== FILE: bulk_props.dfy ===
/**
 Properties of the operations around the toggle: check-all and uncheck-all,
 the selected count, the button title, validation and form writes, the
 dropdown toggle and an option-list reload.
 */
module BulkProps {
  import opened Seqs
  import Text
  import opened Dropdown
  import opened SelectionProps

  // ---------------------------------------------------------------------------
  // checkAll

  /**
   Check-all announces exactly what it appends, in order, removes nothing
   and touches nothing but the model.
   */
  lemma CheckAllAppends(st: State, filtered: seq<MultiOption>)
    ensures var r := CheckAll(st, filtered);
      && AddedIds(r.events) == r.state.model[|st.model|..]
      && RemovedIds(r.events) == []
      && r.state == st.(model := r.state.model)
  {
    var picked := NewIds(VisibleOptions(st, filtered), st.model);
    assert (st.model + picked)[|st.model|..] == picked;
    EventIds(picked);
  }

  /** Check-all twice is check-all once: the second pass adds and announces nothing. */
  lemma CheckAllIdempotent(st: State, filtered: seq<MultiOption>)
    ensures var r := CheckAll(st, filtered);
      CheckAll(r.state, filtered) == Step(r.state, [])
  {
    var r := CheckAll(st, filtered);
    var visible := VisibleOptions(st, filtered);
    assert VisibleOptions(r.state, filtered) == visible;
    NewIdsCovered(visible, r.state.model);
    assert r.state.model + [] == r.state.model;
  }

  // ---------------------------------------------------------------------------
  // uncheckAll

  /**
   Uncheck-all announces every id it deletes: kept and removed ids together
   account for the old model, each removed id was selected and is gone, and
   nothing is added or changed besides the model.
   */
  lemma UncheckAllRemovesVisible(st: State, filtered: seq<MultiOption>)
    ensures var r := UncheckAll(st, filtered);
      && |r.state.model| + |RemovedIds(r.events)| == |st.model|
      && (forall x :: x in RemovedIds(r.events) ==> x in st.model && x !in r.state.model)
      && multiset(r.state.model) + multiset(RemovedIds(r.events)) == multiset(st.model)
      && IsSubsequence(RemovedIds(r.events), st.model)
      && AddedIds(r.events) == []
      && r.state == st.(model := r.state.model)
  {
    var targets := if SearchFilterApplied(st) then Ids(filtered) else st.model;
    var removed := KeepOnly(st.model, targets);
    FilterSplitsLength(st.model, targets);
    EventIds(removed);
    FilterOutMultiset(st.model, targets);
    KeepOnlyMultiset(st.model, targets);
    KeepOnlyIsSubsequence(st.model, targets);
    assert multiset(FilterOut(st.model, targets)) + multiset(removed) == multiset(st.model);
  }

  /**
   When no search filter is applied (search disabled, paging info shown, or
   an empty search text) check-all selects every option and uncheck-all
   clears the selection.
   */
  lemma NoFilterMeansEverything(st: State, filtered: seq<MultiOption>)
    requires !st.settings.enableSearch || st.settings.showPagingInfo || st.searchFilterText == ""
    ensures forall i :: 0 <= i < |st.options| ==> st.options[i].id in CheckAll(st, filtered).state.model
    ensures UncheckAll(st, filtered).state.model == []
  {
    assert !SearchFilterApplied(st);
  }

  /** On a reload with `uncheckAllOnReload` and no filter, the whole selection is dropped and announced. */
  lemma ReloadUnchecksAll(st: State, newOptions: Option<seq<MultiOption>>, filtered: seq<MultiOption>)
    requires st.settings.uncheckAllOnReload
    requires !SearchFilterApplied(st)
    ensures var r := OnOptionsChange(st, newOptions, false, filtered);
      && r.state.model == []
      && RemovedIds(r.events) == st.model
  {
    var st1 := st.(options := if newOptions.Some? then newOptions.value else []);
    assert !SearchFilterApplied(st1);
    UncheckAllRemovesVisible(st1, filtered);
    KeepOnlyCovered(st.model, st.model);
    EventIds(st.model);
  }

  /** No new ids are left once every option's id is selected. */
  lemma {:induction false} NewIdsCovered(opts: seq<MultiOption>, m: seq<int>)
    requires forall i :: 0 <= i < |opts| ==> opts[i].id in m
    ensures NewIds(opts, m) == []
    decreases |opts|
  {
    if |opts| > 0 {
      assert forall i :: 0 <= i < |opts[1..]| ==> opts[1..][i] == opts[i + 1];
      NewIdsCovered(opts[1..], m);
    }
  }

  // ---------------------------------------------------------------------------
  // numSelected

  /**
   The selected count splits the model: parent ids on one side, everything
   else counted. So it equals the model length exactly when no parent id is
   selected, and is zero exactly when only parent ids are.
   */
  lemma NumSelectedExcludesParents(st: State)
    ensures NumSelected(st) + |KeepOnly(st.model, Parents(st.options))| == |st.model|
    ensures NumSelected(st) == |st.model| <==> forall x :: x in st.model ==> !IsParentIdOf(st.options, x)
    ensures NumSelected(st) == 0 <==> forall x :: x in st.model ==> IsParentIdOf(st.options, x)
  {
    var ps := Parents(st.options);
    FilterSplitsLength(st.model, ps);
    var kept := KeepOnly(st.model, ps);
    var rest := FilterOut(st.model, ps);
    if NumSelected(st) == |st.model| {
      assert |kept| == 0;
      forall x | x in st.model ensures !IsParentIdOf(st.options, x) {
        assert x !in kept;
      }
    }
    if forall x :: x in st.model ==> !IsParentIdOf(st.options, x) {
      forall x | x in st.model ensures x !in ps {
        assert !IsParentIdOf(st.options, x);
      }
      KeepOnlyAbsent(st.model, ps);
    }
    if forall x :: x in st.model ==> IsParentIdOf(st.options, x) {
      forall x | x in st.model ensures x in ps {
        assert IsParentIdOf(st.options, x);
      }
      FilterOutCovered(st.model, ps);
    }
    if NumSelected(st) == 0 {
      forall x | x in st.model ensures IsParentIdOf(st.options, x) {
        assert x !in rest;
      }
    }
  }

  /** The count, hence the title, depends only on how often each id is selected, not on the order. */
  lemma NumSelectedIgnoresOrder(st: State, m2: seq<int>)
    requires multiset(m2) == multiset(st.model)
    ensures NumSelected(st.(model := m2)) == NumSelected(st)
  {
    var ps := Parents(st.options);
    FilterOutMultiset(st.model, ps);
    FilterOutMultiset(m2, ps);
    assert multiset(FilterOut(st.model, ps)) == multiset(FilterOut(m2, ps));
    assert |multiset(FilterOut(st.model, ps))| == |FilterOut(st.model, ps)|;
    assert |multiset(FilterOut(m2, ps))| == |FilterOut(m2, ps)|;
  }

  // ---------------------------------------------------------------------------
  // Title

  /** The options listed by the title depend only on which ids are selected. */
  lemma {:induction false} SelectedOptionsByMembership(opts: seq<MultiOption>, m1: seq<int>, m2: seq<int>)
    requires forall x :: x in m1 <==> x in m2
    ensures SelectedOptions(opts, m1) == SelectedOptions(opts, m2)
    decreases |opts|
  {
    if |opts| > 0 {
      SelectedOptionsByMembership(opts[1..], m1, m2);
    }
  }

  /**
   The title lists names in option order, not selection order: reordering
   the selection never changes the title.
   */
  lemma TitleIgnoresSelectionOrder(st: State, m2: seq<int>)
    requires multiset(m2) == multiset(st.model)
    ensures Title(st.(model := m2)) == Title(st)
  {
    NumSelectedIgnoresOrder(st, m2);
    SameMultisetSameMembers(st.model, m2);
    SelectedOptionsByMembership(st.options, st.model, m2);
    TitleFromParts(st, st.(model := m2));
  }

  lemma SameMultisetSameMembers(m1: seq<int>, m2: seq<int>)
    requires multiset(m1) == multiset(m2)
    ensures |m1| == |m2|
    ensures forall x :: x in m1 <==> x in m2
  {
    assert |m1| == |multiset(m1)| && |m2| == |multiset(m2)|;
    forall x ensures x in m1 <==> x in m2 {
      assert x in m1 <==> x in multiset(m1);
      assert x in m2 <==> x in multiset(m2);
    }
  }

  /** The title is determined by the count, the model length and the listed options. */
  lemma TitleFromParts(st1: State, st2: State)
    requires st1.options == st2.options && st1.settings == st2.settings && st1.texts == st2.texts
    requires NumSelected(st1) == NumSelected(st2) && |st1.model| == |st2.model|
    requires SelectedOptions(st1.options, st1.model) == SelectedOptions(st2.options, st2.model)
    ensures Title(st1) == Title(st2)
  {
  }

  /** The selected options are the options, in order, whose id is selected. */
  lemma {:induction false} SelectedOptionsInOrder(opts: seq<MultiOption>, m: seq<int>)
    ensures IsSubsequence(SelectedOptions(opts, m), opts)
    decreases |opts|
  {
    if |opts| > 0 {
      SelectedOptionsInOrder(opts[1..], m);
      var rest := SelectedOptions(opts[1..], m);
      if opts[0].id in m {
        assert ([opts[0]] + rest)[1..] == rest;
      } else {
        SubsequenceSkip(rest, opts[1..], opts[0]);
        assert [opts[0]] + opts[1..] == opts;
        assert SelectedOptions(opts, m) == [] + rest == rest;
      }
    }
  }

  /**
   Nothing counted (only parent ids selected, or nothing) or a fixed title:
   the title is the default text.
   */
  lemma TitleDefaultWhenNothingCounted(st: State)
    requires st.settings.fixedTitle || forall x :: x in st.model ==> IsParentIdOf(st.options, x)
    ensures Title(st) == st.texts.defaultTitle
  {
    NumSelectedExcludesParents(st);
  }

  /** Something counted, no fixed title, every option selected and the all-selected flag: the all-selected text. */
  lemma TitleAllSelected(st: State)
    requires !st.settings.fixedTitle && st.settings.displayAllSelectedText
    requires exists x :: x in st.model && !IsParentIdOf(st.options, x)
    requires |st.model| == |st.options|
    ensures Title(st) == st.texts.allSelected
  {
    NumSelectedExcludesParents(st);
  }

  /**
   Within the item limit the title is the ", " join of the names of the
   selected options in option order, whatever the names hold: its length is
   the names' total plus two per separator, and the `k`-th selected option's
   name sits at its offset, followed by ", " unless it is the last.
   */
  lemma TitleJoinsSelectedNames(st: State, k: nat)
    requires NumSelected(st) > 0 && !st.settings.fixedTitle
    requires !(st.settings.displayAllSelectedText && |st.model| == |st.options|)
    requires st.settings.dynamicTitleMaxItems >= NumSelected(st)
    requires k < |SelectedOptions(st.options, st.model)|
    ensures var names := Names(SelectedOptions(st.options, st.model));
      && |Title(st)| == Text.SumLengths(names) + 2 * (|names| - 1)
      && Text.ListedAt(Title(st), names, Text.ListSeparator, k)
  {
    var names := Names(SelectedOptions(st.options, st.model));
    TitleIsJoin(st);
    Text.JoinLength(names, Text.ListSeparator);
    Text.JoinListsAt(names, Text.ListSeparator, k);
  }

  /** Within the item limit the title is the ", " join of the selected names. */
  lemma TitleIsJoin(st: State)
    requires NumSelected(st) > 0 && !st.settings.fixedTitle
    requires !(st.settings.displayAllSelectedText && |st.model| == |st.options|)
    requires st.settings.dynamicTitleMaxItems >= NumSelected(st)
    ensures Title(st) == Text.Join(Names(SelectedOptions(st.options, st.model)), Text.ListSeparator)
  {
  }

  /**
   Within the item limit, the title reads back, split at ", ", as the names
   of the selected options in option order (when no name holds a comma); an
   empty list of names gives the empty title.
   */
  lemma TitleListsSelectedNames(st: State)
    requires NumSelected(st) > 0 && !st.settings.fixedTitle
    requires !(st.settings.displayAllSelectedText && |st.model| == |st.options|)
    requires st.settings.dynamicTitleMaxItems >= NumSelected(st)
    requires forall i :: 0 <= i < |st.options| ==> ',' !in st.options[i].name
    ensures var names := Names(SelectedOptions(st.options, st.model));
      && (|names| > 0 ==> Text.SplitList(Title(st)) == names)
      && (|names| == 0 ==> Title(st) == "")
    ensures IsSubsequence(SelectedOptions(st.options, st.model), st.options)
  {
    var sel := SelectedOptions(st.options, st.model);
    var names := Names(sel);
    forall k | 0 <= k < |names| ensures ',' !in names[k] {
      assert sel[k] in sel;
    }
    if |names| > 0 {
      Text.SplitJoin(names);
    }
    SelectedOptionsInOrder(st.options, st.model);
  }

  /**
   Past the item limit, the title is the count in decimal, a space, and the
   singular label for exactly one or the plural label otherwise; the count
   reads back from the leading digits.
   */
  lemma TitleShowsCount(st: State)
    requires NumSelected(st) > 0 && !st.settings.fixedTitle
    requires !(st.settings.displayAllSelectedText && |st.model| == |st.options|)
    requires st.settings.dynamicTitleMaxItems < NumSelected(st)
    ensures var t := Title(st);
      var ds := Text.LeadingDigits(t);
      && Text.DecimalValue(ds) == NumSelected(st)
      && |ds| < |t| && t[|ds|] == ' '
      && t[|ds| + 1..] == (if NumSelected(st) == 1 then st.texts.checked else st.texts.checkedPlural)
  {
    var n := NumSelected(st);
    var caption := if n == 1 then st.texts.checked else st.texts.checkedPlural;
    var t := Title(st);
    assert t == Text.NatToString(n) + (" " + caption);
    Text.LeadingNumeral(n, " " + caption);
  }

  // ---------------------------------------------------------------------------
  // isSelected, validate, writeValue, toggleDropdown

  /**
   A toggle flips `isSelected` for the toggled option unless the limit
   refuses it: a deselection drops it (for a `parentId` of 0 too), a
   selection under the limit appends it, and an auto-unselect eviction keeps
   it as the newest entry.
   */
  lemma ToggleFlipsIsSelected(st: State, o: MultiOption)
    requires o.id in st.model ==> NoDup(st.model)
    requires IsSelected(st, o) || UnderLimit(st.settings, |st.model|)
      || (st.settings.autoUnselect && |st.model| > 0)
    ensures IsSelected(SetSelected(st, o).state, o) == !IsSelected(st, o)
  {
    if IsSelected(st, o) {
      if o.parentId == Some(0) {
        ZeroParentDropsHead(st, o);
        var m1 := FilterOut(st.model, [o.id]);
        assert o.id !in m1;
      } else {
        DeselectRemovesGroup(st, o);
        var group := DeselectGroup(st.options, o, st.model);
        assert o.id in group;
      }
    } else if UnderLimit(st.settings, |st.model|) {
      SelectAppendsGroup(st, o);
      assert SetSelected(st, o).state.model[|st.model|] == o.id;
    } else {
      LimitEvictsOldest(st, o);
      assert SetSelected(st, o).state.model[|st.model| - 1] == o.id;
    }
  }

  /**
   The form's writes overwrite one another: the last write wins, writing the
   current model back changes nothing, and clearing the value resets the
   count and the caption.
   */
  lemma WriteValueReplaces(st: State, v1: Option<seq<int>>, v2: Option<seq<int>>)
    ensures WriteValue(WriteValue(st, v1), v2) == WriteValue(st, v2)
    ensures WriteValue(st, Some(st.model)) == st
    ensures NumSelected(WriteValue(st, None)) == 0
    ensures Title(WriteValue(st, None)) == st.texts.defaultTitle
  {
  }

  /** Toggling the dropdown twice restores visibility and reports opened and closed, one each. */
  lemma ToggleDropdownTwice(st: State)
    ensures var r1 := ToggleDropdown(st);
      var r2 := ToggleDropdown(r1.state);
      && r2.state == st
      && r1.events + r2.events == (if st.isVisible then [Closed, Opened] else [Opened, Closed])
  {
  }
}

=== FILE: dropdown.dfy ===
/**
 The selection state of the multiselect dropdown (`MultiselectDropdown` in
 dist/dropdown/dropdown.component.js) and the operations that change it.

 The selection (`model`) is an ordered sequence of option ids. Every operation
 is a pure step from a state to a new state plus the events it emits, in
 emission order. The derived values (`numSelected`, the button title) are
 functions of the state, recomputed after every step.
 */
module Dropdown {
  import opened Seqs
  import Text

  datatype Option<+T> = None | Some(value: T)

  /**
   One entry of the option list. `parentId == None` stands for an absent
   (undefined) parentId, `Some(k)` for a numeric one; `0` is a number but is
   falsy, and the source treats the two readings differently.
   */
  datatype MultiOption = MultiOption(id: int, name: string, parentId: Option<int>, isLabel: bool)

  /** The settings that steer selection and the title (rendering-only settings are not modelled). */
  datatype Settings = Settings(
    selectionLimit: int,
    closeOnSelect: bool,
    autoUnselect: bool,
    fixedTitle: bool,
    dynamicTitleMaxItems: int,
    displayAllSelectedText: bool,
    enableSearch: bool,
    showPagingInfo: bool,
    uncheckAllOnReload: bool)

  /** The defaults of the component constructor; `displayAllSelectedText` has none, so it is falsy. */
  const DefaultSettings: Settings := Settings(
    selectionLimit := 0,
    closeOnSelect := false,
    autoUnselect := false,
    fixedTitle := false,
    dynamicTitleMaxItems := 3,
    displayAllSelectedText := false,
    enableSearch := false,
    showPagingInfo := false,
    uncheckAllOnReload := false)

  /** The caption texts the title uses. */
  datatype Texts = Texts(checked: string, checkedPlural: string, defaultTitle: string, allSelected: string)

  const DefaultTexts: Texts := Texts(
    checked := "checked",
    checkedPlural := "checked",
    defaultTitle := "Select",
    allSelected := "All selected")

  /** What the component emits: `onAdded`, `onRemoved`, `selectionLimitReached`, `dropdownOpened`, `dropdownClosed`. */
  datatype Event = Added(id: int) | Removed(id: int) | LimitReached(count: int) | Opened | Closed

  /** The one error `validate` reports: the `required` entry. */
  datatype ValidationError = Required

  datatype State = State(
    model: seq<int>,
    options: seq<MultiOption>,
    settings: Settings,
    texts: Texts,
    isVisible: bool,
    searchFilterText: string)

  /** A step's outcome: the new state and the events emitted on the way, in order. */
  datatype Step = Step(state: State, events: seq<Event>)

  // ---------------------------------------------------------------------------
  // Option-list queries

  /** Some option names `x` as its numeric parentId. */
  predicate IsParentIdOf(opts: seq<MultiOption>, x: int) {
    exists i :: 0 <= i < |opts| && opts[i].parentId == Some(x)
  }

  /** Some option has id `x` and parent `p`. */
  predicate IsChildOf(opts: seq<MultiOption>, x: int, p: int) {
    exists i :: 0 <= i < |opts| && opts[i].id == x && opts[i].parentId == Some(p)
  }

  /** Some option has id `x`. */
  predicate HasId(opts: seq<MultiOption>, x: int) {
    exists i :: 0 <= i < |opts| && opts[i].id == x
  }

  /**
   The `parents` list built when the options change: the parentId of every
   option whose parentId is a number (zero included), in option order, with
   duplicates.
   */
  function Parents(opts: seq<MultiOption>): (ps: seq<int>)
    ensures |ps| <= |opts|
    ensures forall x :: x in ps <==> IsParentIdOf(opts, x)
  {
    if |opts| == 0 then []
    else
      var rest := Parents(opts[1..]);
      assert forall x :: IsParentIdOf(opts[1..], x) ==> IsParentIdOf(opts, x) by {
        forall x | IsParentIdOf(opts[1..], x) ensures IsParentIdOf(opts, x) {
          var i :| 0 <= i < |opts[1..]| && opts[1..][i].parentId == Some(x);
          assert opts[i + 1].parentId == Some(x);
        }
      }
      assert forall x :: IsParentIdOf(opts, x) ==> opts[0].parentId == Some(x) || IsParentIdOf(opts[1..], x) by {
        forall x | IsParentIdOf(opts, x) && opts[0].parentId != Some(x) ensures IsParentIdOf(opts[1..], x) {
          var i :| 0 <= i < |opts| && opts[i].parentId == Some(x);
          assert opts[1..][i - 1].parentId == Some(x);
        }
      }
      (if opts[0].parentId.Some? then [opts[0].parentId.value] else []) + rest
  }

  /**
   The ids of the options whose parentId is `p`, in option order, restricted
   to those in `m` (`inModel`) or to those not in `m` (`!inModel`).
   */
  function ChildIds(opts: seq<MultiOption>, p: int, m: seq<int>, inModel: bool): (r: seq<int>)
    ensures forall x :: x in r <==> IsChildOf(opts, x, p) && (x in m) == inModel
  {
    if |opts| == 0 then []
    else
      var rest := ChildIds(opts[1..], p, m, inModel);
      assert forall x :: IsChildOf(opts[1..], x, p) ==> IsChildOf(opts, x, p) by {
        forall x | IsChildOf(opts[1..], x, p) ensures IsChildOf(opts, x, p) {
          var i :| 0 <= i < |opts[1..]| && opts[1..][i].id == x && opts[1..][i].parentId == Some(p);
          assert opts[i + 1].id == x;
        }
      }
      assert forall x :: IsChildOf(opts, x, p) ==> (opts[0].id == x && opts[0].parentId == Some(p)) || IsChildOf(opts[1..], x, p) by {
        forall x | IsChildOf(opts, x, p) && !(opts[0].id == x && opts[0].parentId == Some(p))
          ensures IsChildOf(opts[1..], x, p)
        {
          var i :| 0 <= i < |opts| && opts[i].id == x && opts[i].parentId == Some(p);
          assert opts[1..][i - 1].id == x;
        }
      }
      var o := opts[0];
      (if o.parentId == Some(p) && (o.id in m) == inModel then [o.id] else []) + rest
  }

  /** The ids of the options not yet in `m`, in option order (duplicates kept). */
  function NewIds(opts: seq<MultiOption>, m: seq<int>): (r: seq<int>)
    ensures forall x :: x in r <==> HasId(opts, x) && x !in m
  {
    if |opts| == 0 then []
    else
      var rest := NewIds(opts[1..], m);
      assert forall x :: HasId(opts[1..], x) ==> HasId(opts, x) by {
        forall x | HasId(opts[1..], x) ensures HasId(opts, x) {
          var i :| 0 <= i < |opts[1..]| && opts[1..][i].id == x;
          assert opts[i + 1].id == x;
        }
      }
      assert forall x :: HasId(opts, x) ==> opts[0].id == x || HasId(opts[1..], x) by {
        forall x | HasId(opts, x) && opts[0].id != x ensures HasId(opts[1..], x) {
          var i :| 0 <= i < |opts| && opts[i].id == x;
          assert opts[1..][i - 1].id == x;
        }
      }
      (if opts[0].id !in m then [opts[0].id] else []) + rest
  }

  /** The ids of the options, in order. */
  function Ids(opts: seq<MultiOption>): (r: seq<int>)
    ensures |r| == |opts|
    ensures forall i :: 0 <= i < |opts| ==> r[i] == opts[i].id
  {
    if |opts| == 0 then [] else [opts[0].id] + Ids(opts[1..])
  }

  /** The options whose id is in `m`, in option order. */
  function SelectedOptions(opts: seq<MultiOption>, m: seq<int>): (r: seq<MultiOption>)
    ensures forall o :: o in r <==> o in opts && o.id in m
  {
    if |opts| == 0 then []
    else (if opts[0].id in m then [opts[0]] else []) + SelectedOptions(opts[1..], m)
  }

  function Names(opts: seq<MultiOption>): (r: seq<string>)
    ensures |r| == |opts|
    ensures forall i :: 0 <= i < |opts| ==> r[i] == opts[i].name
  {
    if |opts| == 0 then [] else [opts[0].name] + Names(opts[1..])
  }

  // ---------------------------------------------------------------------------
  // Events

  function AddedEvents(xs: seq<int>): (r: seq<Event>)
    ensures |r| == |xs|
    ensures forall i :: 0 <= i < |xs| ==> r[i] == Added(xs[i])
  {
    if |xs| == 0 then [] else [Added(xs[0])] + AddedEvents(xs[1..])
  }

  function RemovedEvents(xs: seq<int>): (r: seq<Event>)
    ensures |r| == |xs|
    ensures forall i :: 0 <= i < |xs| ==> r[i] == Removed(xs[i])
  {
    if |xs| == 0 then [] else [Removed(xs[0])] + RemovedEvents(xs[1..])
  }

  /** The ids carried by the `Added` events, in emission order. */
  function AddedIds(evs: seq<Event>): seq<int> {
    if |evs| == 0 then []
    else (if evs[0].Added? then [evs[0].id] else []) + AddedIds(evs[1..])
  }

  /** The ids carried by the `Removed` events, in emission order. */
  function RemovedIds(evs: seq<Event>): seq<int> {
    if |evs| == 0 then []
    else (if evs[0].Removed? then [evs[0].id] else []) + RemovedIds(evs[1..])
  }

  // ---------------------------------------------------------------------------
  // Visibility

  /** `toggleDropdown`: flips visibility and reports the new one. */
  function ToggleDropdown(st: State): (r: Step)
    ensures r.state == st.(isVisible := !st.isVisible)
    ensures r.events == [if r.state.isVisible then Opened else Closed]
  {
    Step(st.(isVisible := !st.isVisible), [if !st.isVisible then Opened else Closed])
  }

  /** What `closeOnSelect` adds after a selection change: the toggle's report of the new visibility. */
  function ToggleEvents(s: Settings, visible: bool): seq<Event> {
    if s.closeOnSelect then [if visible then Opened else Closed] else []
  }

  /** The tail of a successful `setSelected`: `closeOnSelect` toggles (it does not force closed). */
  function Finish(st: State, evs: seq<Event>): (r: Step)
    ensures r.state == st.(isVisible := st.isVisible != st.settings.closeOnSelect)
    ensures r.events == evs + ToggleEvents(st.settings, r.state.isVisible)
  {
    if st.settings.closeOnSelect then
      var t := ToggleDropdown(st);
      Step(t.state, evs + t.events)
    else Step(st, evs)
  }

  // ---------------------------------------------------------------------------
  // setSelected

  /** The parentId is truthy: present and not zero. */
  predicate HasTruthyParent(o: MultiOption) {
    o.parentId.Some? && o.parentId.value != 0
  }

  /**
   `option.parentId && model.indexOf(option.parentId)`, as compared with `>= 0`:
   an absent parentId yields `undefined` (never `>= 0`, written -1 here); a
   zero parentId yields `0` itself, so position 0 is taken whatever is there.
   */
  function ParentIndex(o: MultiOption, m: seq<int>): (r: int)
    ensures r >= 0 ==> o.parentId.Some?
    ensures HasTruthyParent(o) ==> (r >= 0 <==> o.parentId.value in m)
    ensures o.parentId == Some(0) ==> r == 0
    ensures r >= 0 && HasTruthyParent(o) ==> r < |m| && m[r] == o.parentId.value
  {
    match o.parentId
    case None => -1
    case Some(p) => if p == 0 then 0 else IndexOf(m, p)
  }

  /** Every other option with the same parentId as `o` is in `m`. */
  predicate SiblingsSelected(opts: seq<MultiOption>, o: MultiOption, m: seq<int>) {
    forall i :: 0 <= i < |opts| && opts[i].id != o.id && opts[i].parentId == o.parentId ==> opts[i].id in m
  }

  /** Room for one more: a zero limit is no limit; a non-zero one caps the model length. */
  predicate UnderLimit(s: Settings, n: int) {
    s.selectionLimit == 0 || n < s.selectionLimit
  }

  /**
   After `o.id` has been removed (giving `m1`): remove the parent if the
   parent test passes, otherwise, if `o` is a parent, remove its selected
   children.
   */
  function RemoveRelated(opts: seq<MultiOption>, o: MultiOption, m1: seq<int>): (seq<int>, seq<Event>)
  {
    var pIndex := ParentIndex(o, m1);
    if pIndex >= 0 then
      (RemoveAt(m1, pIndex), [Removed(o.parentId.value)])
    else if o.id in Parents(opts) then
      var kids := ChildIds(opts, o.id, m1, true);
      (FilterOut(m1, kids), RemovedEvents(kids))
    else
      (m1, [])
  }

  /**
   After `o.id` has been appended (giving `m1`): append the parent when the
   siblings are all in, or, if `o` is a parent, append its missing children.
   */
  function AddRelated(opts: seq<MultiOption>, o: MultiOption, m1: seq<int>): (seq<int>, seq<Event>)
  {
    if HasTruthyParent(o) then
      if SiblingsSelected(opts, o, m1) then (m1 + [o.parentId.value], [Added(o.parentId.value)])
      else (m1, [])
    else if o.id in Parents(opts) then
      var kids := ChildIds(opts, o.id, m1, false);
      (m1 + kids, AddedEvents(kids))
    else
      (m1, [])
  }

  /** The deselect half of `setSelected`: `o.id` is in the model. */
  function Deselect(st: State, o: MultiOption): (r: Step)
    requires o.id in st.model
    ensures r.state == st.(model := r.state.model, isVisible := r.state.isVisible)
    ensures |r.state.model| < |st.model|
    ensures |r.events| > 0 && r.events[0] == Removed(o.id)
  {
    var m1 := RemoveAt(st.model, IndexOf(st.model, o.id));
    var (m2, evs) := RemoveRelated(st.options, o, m1);
    assert |m2| <= |m1| by {
      if ParentIndex(o, m1) < 0 && o.id in Parents(st.options) {
        assert m2 == FilterOut(m1, ChildIds(st.options, o.id, m1, true));
      }
    }
    Finish(st.(model := m2), [Removed(o.id)] + evs)
  }

  /** The select half of `setSelected` while under the limit. */
  function Select(st: State, o: MultiOption): (r: Step)
    ensures r.state == st.(model := r.state.model, isVisible := r.state.isVisible)
    ensures |r.events| > 0 && r.events[0] == Added(o.id)
  {
    var m1 := st.model + [o.id];
    var (m2, evs) := AddRelated(st.options, o, m1);
    Finish(st.(model := m2), [Added(o.id)] + evs)
  }

  /** Auto-unselect at the limit: append, then shift the oldest entry out. */
  function Evict(st: State, o: MultiOption): (r: Step)
    ensures r.state == st.(model := r.state.model, isVisible := r.state.isVisible)
    ensures |r.events| > 0 && r.events[0] == Added(o.id)
  {
    var m1 := st.model + [o.id];
    Finish(st.(model := m1[1..]), [Added(o.id), Removed(m1[0])])
  }

  /** `setSelected`: the user clicked option `o`. */
  function SetSelected(st: State, o: MultiOption): (r: Step)
    ensures r.state.options == st.options && r.state.settings == st.settings
    ensures r.state.texts == st.texts && r.state.searchFilterText == st.searchFilterText
    ensures |r.events| > 0
    ensures o.id in st.model ==> r.events[0] == Removed(o.id) && |r.state.model| < |st.model|
    ensures o.id !in st.model && r.events[0] != Added(o.id) ==> r.state == st
  {
    if IndexOf(st.model, o.id) > -1 then Deselect(st, o)
    else if UnderLimit(st.settings, |st.model|) then Select(st, o)
    else if st.settings.autoUnselect then Evict(st, o)
    else Step(st, [LimitReached(|st.model|)])
  }

  // ---------------------------------------------------------------------------
  // Derived values

  /** `isSelected`: the option's id occurs in the model. */
  function IsSelected(st: State, o: MultiOption): (r: bool)
    ensures r <==> o.id in st.model
  {
    IndexOf(st.model, o.id) > -1
  }

  /** `updateNumSelected`: how many model entries are not parent ids. */
  function NumSelected(st: State): (n: nat)
    ensures n <= |st.model|
  {
    |FilterOut(st.model, Parents(st.options))|
  }

  /** `updateTitle`: the button caption. */
  function Title(st: State): string
  {
    var n := NumSelected(st);
    var s := st.settings;
    if n == 0 || s.fixedTitle then st.texts.defaultTitle
    else if s.displayAllSelectedText && |st.model| == |st.options| then st.texts.allSelected
    else if s.dynamicTitleMaxItems != 0 && s.dynamicTitleMaxItems >= n then
      Text.Join(Names(SelectedOptions(st.options, st.model)), Text.ListSeparator)
    else
      Text.NatToString(n) + " " + (if n == 1 then st.texts.checked else st.texts.checkedPlural)
  }

  /**
   `preventCheckboxCheck`: a checkbox tick is refused once a rejecting limit
   is reached, which is exactly when `setSelected` would refuse the option.
   */
  function PreventCheckboxCheck(st: State, o: MultiOption): (r: bool)
    ensures r <==> o.id !in st.model && SetSelected(st, o) == Step(st, [LimitReached(|st.model|)])
  {
    st.settings.selectionLimit != 0 && !st.settings.autoUnselect
    && |st.model| >= st.settings.selectionLimit
    && IndexOf(st.model, o.id) == -1
  }

  /** `validate`: a missing or empty model fails the `required` check. */
  function Validate(st: State): (r: Option<ValidationError>)
    ensures r == None <==> st.model != []
  {
    if |st.model| > 0 then None else Some(Required)
  }

  /** `writeValue`: the form writes a value; null or undefined (`None`) becomes the empty selection. */
  function WriteValue(st: State, value: Option<seq<int>>): (r: State)
    ensures r == st.(model := r.model)
    ensures forall o :: IsSelected(r, o) <==> value.Some? && o.id in value.value
    ensures Validate(r) == None <==> value.Some? && value.value != []
  {
    match value
    case Some(v) => st.(model := v)
    case None => st.(model := [])
  }

  /** `searchFilterApplied`: search is enabled, paging info is hidden and the search text is non-empty. */
  function SearchFilterApplied(st: State): bool
  {
    !st.settings.showPagingInfo && st.settings.enableSearch && |st.searchFilterText| > 0
  }

  // ---------------------------------------------------------------------------
  // checkAll / uncheckAll / reload

  /**
   The options check-all and uncheck-all work on: the search filter's output
   `filtered` when a filter is applied, otherwise the whole option list.
   */
  function VisibleOptions(st: State, filtered: seq<MultiOption>): seq<MultiOption>
  {
    if SearchFilterApplied(st) then filtered else st.options
  }

  /**
   `checkAll`: appends every not-yet-selected id of the visible options.
   `filtered` is what the search filter returns for the current text; it is
   only consulted when a filter is applied. Labels and the limit are ignored.
   */
  function CheckAll(st: State, filtered: seq<MultiOption>): (r: Step)
    ensures |r.state.model| >= |st.model| && r.state.model[..|st.model|] == st.model
    ensures var visible := VisibleOptions(st, filtered);
      forall i :: 0 <= i < |visible| ==> visible[i].id in r.state.model
    ensures forall x :: x in r.state.model[|st.model|..] ==>
      x !in st.model && HasId(VisibleOptions(st, filtered), x)
    ensures r.state.model[|st.model|..] == FilterOut(Ids(VisibleOptions(st, filtered)), st.model)
  {
    var visible := VisibleOptions(st, filtered);
    var picked := NewIds(visible, st.model);
    NewIdsCoverOptions(visible, st.model);
    NewIdsIsFilter(visible, st.model);
    assert (st.model + picked)[|st.model|..] == picked;
    Step(st.(model := st.model + picked), AddedEvents(picked))
  }

  /** Every option's id is either selected already or picked as new. */
  lemma NewIdsCoverOptions(opts: seq<MultiOption>, m: seq<int>)
    ensures forall i :: 0 <= i < |opts| ==> opts[i].id in m || opts[i].id in NewIds(opts, m)
  {
    forall i | 0 <= i < |opts| ensures opts[i].id in m || opts[i].id in NewIds(opts, m) {
      assert HasId(opts, opts[i].id);
    }
  }

  /** The new ids are the option ids, in option order, with the selected ones filtered out. */
  lemma {:induction false} NewIdsIsFilter(opts: seq<MultiOption>, m: seq<int>)
    ensures NewIds(opts, m) == FilterOut(Ids(opts), m)
    decreases |opts|
  {
    if |opts| > 0 {
      NewIdsIsFilter(opts[1..], m);
      var ids := Ids(opts);
      assert ids[0] == opts[0].id && ids[1..] == Ids(opts[1..]);
    }
  }

  /** An id occurs among the ids of `opts` exactly when some option has it. */
  lemma IdsHasId(opts: seq<MultiOption>)
    ensures forall x :: x in Ids(opts) <==> HasId(opts, x)
  {
    forall x ensures x in Ids(opts) <==> HasId(opts, x) {
      if HasId(opts, x) {
        var i :| 0 <= i < |opts| && opts[i].id == x;
        assert Ids(opts)[i] == x;
      }
    }
  }

  /**
   `uncheckAll`: removes every selected id that is visible; with no filter
   applied, every selected id. The survivors keep their order.
   */
  function UncheckAll(st: State, filtered: seq<MultiOption>): (r: Step)
    ensures IsSubsequence(r.state.model, st.model)
    ensures SearchFilterApplied(st) ==>
      forall x :: x in r.state.model <==> x in st.model && !HasId(filtered, x)
    ensures !SearchFilterApplied(st) ==> r.state.model == []
    ensures SearchFilterApplied(st) ==> forall x ::
      multiset(r.state.model)[x] == if HasId(filtered, x) then 0 else multiset(st.model)[x]
  {
    var targets := if SearchFilterApplied(st) then Ids(filtered) else st.model;
    FilterOutIsSubsequence(st.model, targets);
    FilterOutMultiset(st.model, targets);
    IdsHasId(filtered);
    FilterOutCovered(st.model, st.model);
    Step(st.(model := FilterOut(st.model, targets)), RemovedEvents(KeepOnly(st.model, targets)))
  }

  /**
   `ngOnChanges` for a new option list: null becomes the empty list (the
   parents follow from the options); on a reload, `uncheckAllOnReload`
   clears the visible selection. `filtered` is the search filter's output on
   the new options.
   */
  function OnOptionsChange(st: State, newOptions: Option<seq<MultiOption>>, firstChange: bool,
                           filtered: seq<MultiOption>): (r: Step)
    ensures r.state.options == (if newOptions.Some? then newOptions.value else [])
    ensures firstChange || !st.settings.uncheckAllOnReload ==> r.state.model == st.model && r.events == []
  {
    var st1 := st.(options := if newOptions.Some? then newOptions.value else []);
    if !firstChange && st.settings.uncheckAllOnReload then UncheckAll(st1, filtered)
    else Step(st1, [])
  }
}

=== FILE: scenarios.dfy ===
/**
 Concrete runs of `setSelected` on a small grouped option list: a group
 completed by its last child, both answers of the selection limit, and an
 auto-unselect eviction that leaves a parent selected without all of its
 children, and a filtered uncheck-all after which a reselect puts the parent
 id in the model twice.
 */
module Scenarios {
  import opened Seqs
  import opened Dropdown
  import opened SelectionProps

  /** Option 1 stands alone; options 2 and 3 are the children of group 10. */
  const GroupedOptions: seq<MultiOption> := [
    MultiOption(1, "A", None, false),
    MultiOption(2, "B", Some(10), false),
    MultiOption(3, "C", Some(10), false),
    MultiOption(10, "Group", None, false)
  ]

  function StateWith(model: seq<int>, settings: Settings): State {
    State(model, GroupedOptions, settings, DefaultTexts, false, "")
  }

  /** Selecting both children, one after the other, adds the group id after the second. */
  lemma LastChildCompletesGroup()
    ensures var r1 := SetSelected(StateWith([], DefaultSettings), GroupedOptions[1]);
      var r2 := SetSelected(r1.state, GroupedOptions[2]);
      && r1.state.model == [2]
      && r2.state.model == [2, 3, 10]
      && r2.events == [Added(3), Added(10)]
  {
    FirstChildAlone();
    SecondChildCompletes();
  }

  lemma FirstChildAlone()
    ensures SetSelected(StateWith([], DefaultSettings), GroupedOptions[1]) == Step(StateWith([2], DefaultSettings), [Added(2)])
  {
    assert !SiblingsSelected(GroupedOptions, GroupedOptions[1], [2]) by {
      assert GroupedOptions[2].id !in [2];
    }
    assert [] + [2] == [2];
  }

  lemma SecondChildCompletes()
    ensures SetSelected(StateWith([2], DefaultSettings), GroupedOptions[2])
         == Step(StateWith([2, 3, 10], DefaultSettings), [Added(3), Added(10)])
  {
    var st := StateWith([2], DefaultSettings);
    var o := GroupedOptions[2];
    assert [2] + [3] == [2, 3] && [2, 3] + [10] == [2, 3, 10];
    assert SiblingsSelected(GroupedOptions, o, [2, 3]);
    assert AddRelated(GroupedOptions, o, [2, 3]) == ([2, 3, 10], [Added(10)]);
    SelectEvents(st, o, [2, 3, 10], [Added(10)]);
  }

  /** A limit of one without auto-unselect refuses a second option. */
  lemma LimitOneRejects()
    ensures var st := StateWith([1], DefaultSettings.(selectionLimit := 1));
      SetSelected(st, GroupedOptions[1]) == Step(st, [LimitReached(1)])
  {
  }

  /** A limit of one with auto-unselect swaps the selected option for the new one. */
  lemma LimitOneEvicts()
    ensures var st := StateWith([1], DefaultSettings.(selectionLimit := 1, autoUnselect := true));
      var r := SetSelected(st, GroupedOptions[1]);
      r.state.model == [2] && r.events == [Added(2), Removed(1)]
  {
  }

  /**
   Auto-unselect evicts without group propagation: with the whole group 10
   selected at a limit of three, selecting option 1 evicts child 2 and
   leaves 10 selected.
   */
  lemma EvictionBreaksGroup()
    ensures WellFormed(GroupedOptions)
    ensures var st := StateWith([2, 3, 10], DefaultSettings.(selectionLimit := 3, autoUnselect := true));
      && GroupConsistent(GroupedOptions, st.model)
      && SetSelected(st, GroupedOptions[0]).state.model == [3, 10, 1]
      && !GroupConsistent(GroupedOptions, [3, 10, 1])
  {
    GroupedOptionsWellFormed();
    FullGroupConsistent();
    EvictOldestChild();
  }

  lemma EvictOldestChild()
    ensures var st := StateWith([2, 3, 10], DefaultSettings.(selectionLimit := 3, autoUnselect := true));
      SetSelected(st, GroupedOptions[0]).state.model == [3, 10, 1]
  {
    var st := StateWith([2, 3, 10], DefaultSettings.(selectionLimit := 3, autoUnselect := true));
    LimitEvictsOldest(st, GroupedOptions[0]);
    assert [2, 3, 10][1..] + [1] == [3, 10, 1];
  }

  lemma GroupedOptionsWellFormed()
    ensures Parents(GroupedOptions) == [10, 10]
    ensures WellFormed(GroupedOptions)
  {
    assert Parents(GroupedOptions) == [10, 10];
    forall i, j | 0 <= i < |GroupedOptions| && 0 <= j < |GroupedOptions| && GroupedOptions[i].id == GroupedOptions[j].id
      ensures i == j
    {
    }
  }

  lemma FullGroupConsistent()
    ensures GroupConsistent(GroupedOptions, [2, 3, 10])
    ensures !GroupConsistent(GroupedOptions, [3, 10, 1])
  {
    FullGroupSelected();
    HalfGroupSelected();
  }

  lemma FullGroupSelected()
    ensures GroupConsistent(GroupedOptions, [2, 3, 10])
  {
    GroupedOptionsWellFormed();
    assert AllChildrenIn(GroupedOptions, 10, [2, 3, 10]);
    forall p | p in Parents(GroupedOptions)
      ensures p in [2, 3, 10] <==> AllChildrenIn(GroupedOptions, p, [2, 3, 10])
    {
      assert p == 10;
    }
  }

  lemma HalfGroupSelected()
    ensures !GroupConsistent(GroupedOptions, [3, 10, 1])
  {
    GroupedOptionsWellFormed();
    assert !AllChildrenIn(GroupedOptions, 10, [3, 10, 1]) by {
      assert GroupedOptions[1].parentId == Some(10) && GroupedOptions[1].id !in [3, 10, 1];
    }
    assert 10 in Parents(GroupedOptions);
  }

  // ---------------------------------------------------------------------------
  // A duplicate parent id after a filtered uncheck-all

  /** Search enabled with the text "B", which the filter answers with option 2 alone. */
  function SearchState(model: seq<int>): State {
    State(model, GroupedOptions, DefaultSettings.(enableSearch := true), DefaultTexts, false, "B")
  }

  /**
   With group 10 complete, a filtered uncheck-all removes child 2 alone;
   reselecting 2 completes the group again and appends 10 a second time;
   deselecting 2 once more then removes only one of the two 10s, so the
   parent stays selected without its child and is not removed with it.
   */
  lemma DuplicateParentSurvivesDeselect()
    ensures var r1 := UncheckAll(SearchState([2, 3, 10]), [GroupedOptions[1]]);
      var r2 := SetSelected(r1.state, GroupedOptions[1]);
      var r3 := SetSelected(r2.state, GroupedOptions[1]);
      && r1.state.model == [3, 10]
      && r2.state.model == [3, 10, 2, 10]
      && !NoDup(r2.state.model)
      && r3.state.model == [3, 10]
      && 10 in DeselectGroup(GroupedOptions, GroupedOptions[1], r2.state.model)
      && !GroupConsistent(GroupedOptions, r3.state.model)
  {
    FilteredUncheckKeepsParent();
    ReselectAppendsParentAgain();
    DeselectDropsOneParent();
    DuplicateInGroup();
    NoChildTwoInconsistent();
  }

  lemma FilteredUncheckKeepsParent()
    ensures UncheckAll(SearchState([2, 3, 10]), [GroupedOptions[1]]).state == SearchState([3, 10])
  {
    assert SearchFilterApplied(SearchState([2, 3, 10]));
    assert Ids([GroupedOptions[1]]) == [2];
    assert FilterOut([2, 3, 10], [2]) == [3, 10];
  }

  lemma ReselectAppendsParentAgain()
    ensures SetSelected(SearchState([3, 10]), GroupedOptions[1]).state == SearchState([3, 10, 2, 10])
  {
    var o := GroupedOptions[1];
    assert [3, 10] + [2] == [3, 10, 2];
    assert [3, 10, 2] + [10] == [3, 10, 2, 10];
    assert HasTruthyParent(o);
    assert SiblingsSelected(GroupedOptions, o, [3, 10, 2]) by {
      forall i | 0 <= i < |GroupedOptions| && GroupedOptions[i].id != o.id && GroupedOptions[i].parentId == o.parentId
        ensures GroupedOptions[i].id in [3, 10, 2]
      {
        assert i == 2;
      }
    }
    assert AddRelated(GroupedOptions, o, [3, 10, 2]).0 == [3, 10, 2, 10];
    assert SetSelected(SearchState([3, 10]), o) == Select(SearchState([3, 10]), o);
  }

  lemma DeselectDropsOneParent()
    ensures SetSelected(SearchState([3, 10, 2, 10]), GroupedOptions[1]).state == SearchState([3, 10])
  {
    var o := GroupedOptions[1];
    var m1 := RemoveAt([3, 10, 2, 10], 2);
    assert IndexOf([3, 10, 2, 10], 2) == 2;
    assert m1 == [3, 10, 10];
    assert ParentIndex(o, m1) == 1;
    assert RemoveAt(m1, 1) == [3, 10];
    assert SetSelected(SearchState([3, 10, 2, 10]), o) == Deselect(SearchState([3, 10, 2, 10]), o);
  }

  /** The reselected model repeats 10, which a deselect of 2 would count as part of the group. */
  lemma DuplicateInGroup()
    ensures !NoDup([3, 10, 2, 10])
    ensures 10 in DeselectGroup(GroupedOptions, GroupedOptions[1], [3, 10, 2, 10])
  {
    assert ([3, 10, 2, 10])[1] == ([3, 10, 2, 10])[3];
    assert FilterOut([3, 10, 2, 10], [2]) == [3, 10, 10];
  }

  lemma NoChildTwoInconsistent()
    ensures !GroupConsistent(GroupedOptions, [3, 10])
  {
    GroupedOptionsWellFormed();
    assert !AllChildrenIn(GroupedOptions, 10, [3, 10]) by {
      assert GroupedOptions[1].parentId == Some(10) && GroupedOptions[1].id !in [3, 10];
    }
    assert 10 in Parents(GroupedOptions);
  }

  // ---------------------------------------------------------------------------
  // A parent select past the limit

  /**
   The limit is tested before the option's own push only: at a limit of two
   with option 1 selected, selecting group 10 appends both children too.
   */
  lemma ParentOvershootsLimit()
    ensures var st := StateWith([1], DefaultSettings.(selectionLimit := 2));
      var r := SetSelected(st, GroupedOptions[3]);
      && r.state.model == [1, 10, 2, 3]
      && |r.state.model| > st.settings.selectionLimit
  {
    var st := StateWith([1], DefaultSettings.(selectionLimit := 2));
    var o := GroupedOptions[3];
    assert [1] + [10] == [1, 10];
    GroupAppendsBothChildren();
    var (m2, evs) := AddRelated(GroupedOptions, o, [1, 10]);
    assert Select(st, o) == Finish(st.(model := m2), [Added(10)] + evs);
    assert SetSelected(st, o) == Select(st, o);
  }

  /** After group 10 is pushed onto [1], both of its children are appended. */
  lemma GroupAppendsBothChildren()
    ensures AddRelated(GroupedOptions, GroupedOptions[3], [1, 10]).0 == [1, 10, 2, 3]
  {
    GroupedOptionsWellFormed();
    assert ChildIds(GroupedOptions, 10, [1, 10], false) == [2, 3];
  }
}

=== FILE: selection_props.dfy ===
/**
 Properties of `setSelected`, the toggle of one option: what a deselect
 removes, what a select appends, how the selection limit answers, the
 parent/child group invariant, and the on-then-off round trip.
 */
module SelectionProps {
  import opened Seqs
  import opened Dropdown

  // ---------------------------------------------------------------------------
  // Well-formed option lists and the group invariant

  /** No two options share an id. */
  predicate UniqueIds(opts: seq<MultiOption>) {
    forall i, j :: 0 <= i < |opts| && 0 <= j < |opts| && opts[i].id == opts[j].id ==> i == j
  }

  /**
   The option lists the grouping was designed for: unique ids, non-zero
   parentIds, and two levels only (an option referenced as a parent has no
   parentId of its own).
   */
  predicate WellFormed(opts: seq<MultiOption>) {
    && UniqueIds(opts)
    && (forall i :: 0 <= i < |opts| && opts[i].parentId.Some? ==> opts[i].parentId.value != 0)
    && (forall i :: 0 <= i < |opts| && opts[i].id in Parents(opts) ==> opts[i].parentId == None)
  }

  /** Every option whose parentId is `p` is selected in `m`. */
  predicate AllChildrenIn(opts: seq<MultiOption>, p: int, m: seq<int>) {
    forall i :: 0 <= i < |opts| && opts[i].parentId == Some(p) ==> opts[i].id in m
  }

  /** A parent id is selected exactly when all of its children are. */
  predicate GroupConsistent(opts: seq<MultiOption>, m: seq<int>) {
    forall p :: p in Parents(opts) ==> (p in m <==> AllChildrenIn(opts, p, m))
  }

  predicate SelectionInvariant(opts: seq<MultiOption>, m: seq<int>) {
    NoDup(m) && GroupConsistent(opts, m)
  }

  // ---------------------------------------------------------------------------
  // Event bookkeeping

  lemma AddedIdsAppend(a: seq<Event>, b: seq<Event>)
    ensures AddedIds(a + b) == AddedIds(a) + AddedIds(b)
    ensures RemovedIds(a + b) == RemovedIds(a) + RemovedIds(b)
  {
    AddedAppend(a, b);
    RemovedAppend(a, b);
  }

  lemma {:induction false} AddedAppend(a: seq<Event>, b: seq<Event>)
    ensures AddedIds(a + b) == AddedIds(a) + AddedIds(b)
    decreases |a|
  {
    if |a| == 0 {
      assert a + b == b;
    } else {
      var ab := a + b;
      assert ab[0] == a[0] && ab[1..] == a[1..] + b;
      AddedAppend(a[1..], b);
      var h := if a[0].Added? then [a[0].id] else [];
      assert AddedIds(ab) == h + AddedIds(a[1..] + b);
      assert AddedIds(a) == h + AddedIds(a[1..]);
      assert h + (AddedIds(a[1..]) + AddedIds(b)) == (h + AddedIds(a[1..])) + AddedIds(b);
    }
  }

  lemma {:induction false} RemovedAppend(a: seq<Event>, b: seq<Event>)
    ensures RemovedIds(a + b) == RemovedIds(a) + RemovedIds(b)
    decreases |a|
  {
    if |a| == 0 {
      assert a + b == b;
    } else {
      var ab := a + b;
      assert ab[0] == a[0] && ab[1..] == a[1..] + b;
      RemovedAppend(a[1..], b);
      var h := if a[0].Removed? then [a[0].id] else [];
      assert RemovedIds(ab) == h + RemovedIds(a[1..] + b);
      assert RemovedIds(a) == h + RemovedIds(a[1..]);
      assert h + (RemovedIds(a[1..]) + RemovedIds(b)) == (h + RemovedIds(a[1..])) + RemovedIds(b);
    }
  }

  lemma {:induction false} EventIds(xs: seq<int>)
    ensures AddedIds(AddedEvents(xs)) == xs && RemovedIds(AddedEvents(xs)) == []
    ensures RemovedIds(RemovedEvents(xs)) == xs && AddedIds(RemovedEvents(xs)) == []
    decreases |xs|
  {
    if |xs| > 0 {
      EventIds(xs[1..]);
      assert AddedEvents(xs)[1..] == AddedEvents(xs[1..]);
      assert RemovedEvents(xs)[1..] == RemovedEvents(xs[1..]);
    }
  }

  /** The ids announced by a step that ends in `Finish`. */
  lemma FinishIds(st: State, evs: seq<Event>)
    ensures AddedIds(Finish(st, evs).events) == AddedIds(evs)
    ensures RemovedIds(Finish(st, evs).events) == RemovedIds(evs)
  {
    if st.settings.closeOnSelect {
      var t := ToggleDropdown(st);
      AddedIdsAppend(evs, t.events);
    }
  }

  // ---------------------------------------------------------------------------
  // Deselect

  /**
   The ids a deselect of `o` removes: `o.id`; then its parent when the parent
   is selected; otherwise, when `o` is itself a parent, its selected children.
   */
  function DeselectGroup(opts: seq<MultiOption>, o: MultiOption, m: seq<int>): seq<int>
  {
    var m1 := FilterOut(m, [o.id]);
    [o.id]
    + if HasTruthyParent(o) && o.parentId.value in m1 then [o.parentId.value]
      else if o.id in Parents(opts) then ChildIds(opts, o.id, m1, true)
      else []
  }

  /** The part of a deselect after `o.id` itself is gone removes the rest of the group. */
  lemma RemoveRelatedIsFilter(opts: seq<MultiOption>, o: MultiOption, m: seq<int>)
    requires o.id in m && NoDup(m) && o.parentId != Some(0)
    ensures var m1 := FilterOut(m, [o.id]);
      var group := DeselectGroup(opts, o, m);
      && RemoveRelated(opts, o, m1).0 == FilterOut(m, group)
      && RemovedIds(RemoveRelated(opts, o, m1).1) == group[1..]
      && AddedIds(RemoveRelated(opts, o, m1).1) == []
  {
    var m1 := FilterOut(m, [o.id]);
    FilterOutNoDup(m, [o.id]);
    var group := DeselectGroup(opts, o, m);
    if ParentIndex(o, m1) >= 0 {
      var p := o.parentId.value;
      RemoveFirstIsFilterOut(m1, p);
      FilterOutTwice(m, [o.id], [p]);
      EventIds([p]);
      assert RemoveRelated(opts, o, m1).1 == RemovedEvents([p]);
    } else if o.id in Parents(opts) {
      var kids := ChildIds(opts, o.id, m1, true);
      FilterOutTwice(m, [o.id], kids);
      EventIds(kids);
    } else {
      FilterOutTwice(m, [o.id], []);
      FilterOutAbsent(m1, []);
    }
  }

  /** The part of a deselect after `o.id` itself announces the rest of the group, in group order. */
  lemma RemoveRelatedEvents(opts: seq<MultiOption>, o: MultiOption, m: seq<int>)
    requires o.parentId != Some(0)
    ensures var m1 := FilterOut(m, [o.id]);
      RemoveRelated(opts, o, m1).1 == RemovedEvents(DeselectGroup(opts, o, m)[1..])
  {
    var m1 := FilterOut(m, [o.id]);
    var group := DeselectGroup(opts, o, m);
    if ParentIndex(o, m1) >= 0 {
      assert group[1..] == [o.parentId.value];
    } else if o.id in Parents(opts) {
      assert group[1..] == ChildIds(opts, o.id, m1, true);
    } else {
      assert group[1..] == [];
    }
  }

  /**
   Toggling a selected option removes exactly its group: the survivors are
   the old model with those ids filtered out (so their order is kept and no
   other id leaves), and one `Removed` is emitted per id, `o.id` first.
   */
  lemma DeselectRemovesGroup(st: State, o: MultiOption)
    requires o.id in st.model
    requires NoDup(st.model)
    requires o.parentId != Some(0)
    ensures var r := SetSelected(st, o);
      var group := DeselectGroup(st.options, o, st.model);
      && r.state.model == FilterOut(st.model, group)
      && RemovedIds(r.events) == group
      && AddedIds(r.events) == []
      && r.events[0] == Removed(o.id)
      && r.state.isVisible == (st.isVisible != st.settings.closeOnSelect)
    ensures IsSubsequence(SetSelected(st, o).state.model, st.model)
    ensures NoDup(SetSelected(st, o).state.model)
  {
    var m := st.model;
    RemoveFirstIsFilterOut(m, o.id);
    var m1 := FilterOut(m, [o.id]);
    RemoveRelatedIsFilter(st.options, o, m);
    var (m2, evs) := RemoveRelated(st.options, o, m1);
    var group := DeselectGroup(st.options, o, m);
    AddedIdsAppend([Removed(o.id)], evs);
    FinishIds(st.(model := m2), [Removed(o.id)] + evs);
    assert [o.id] + group[1..] == group;
    assert SetSelected(st, o) == Finish(st.(model := m2), [Removed(o.id)] + evs);
    FilterOutIsSubsequence(m, group);
    FilterOutNoDup(m, group);
  }

  /**
   The events of a deselect, in full: one `Removed` per id of the group, in
   group order, then only what `closeOnSelect` reports.
   */
  lemma DeselectEvents(st: State, o: MultiOption)
    requires o.id in st.model
    requires NoDup(st.model)
    requires o.parentId != Some(0)
    ensures var r := SetSelected(st, o);
      r.events == RemovedEvents(DeselectGroup(st.options, o, st.model)) + ToggleEvents(st.settings, r.state.isVisible)
  {
    var m := st.model;
    RemoveFirstIsFilterOut(m, o.id);
    var m1 := FilterOut(m, [o.id]);
    RemoveRelatedEvents(st.options, o, m);
    var (m2, evs) := RemoveRelated(st.options, o, m1);
    var group := DeselectGroup(st.options, o, m);
    assert RemovedEvents(group) == [Removed(o.id)] + RemovedEvents(group[1..]);
    assert SetSelected(st, o) == Finish(st.(model := m2), [Removed(o.id)] + evs);
  }

  // ---------------------------------------------------------------------------
  // Select under the limit

  /** What the part of a select after `o.id` itself appends, and that it announces it. */
  lemma AddRelatedAppends(opts: seq<MultiOption>, o: MultiOption, m1: seq<int>)
    ensures var (m2, evs) := AddRelated(opts, o, m1);
      && |m2| >= |m1| && m2[..|m1|] == m1
      && evs == AddedEvents(m2[|m1|..])
      && AddedIds(evs) == m2[|m1|..]
      && RemovedIds(evs) == []
  {
    var (m2, evs) := AddRelated(opts, o, m1);
    if HasTruthyParent(o) {
      if SiblingsSelected(opts, o, m1) {
        EventIds([o.parentId.value]);
        assert evs == AddedEvents([o.parentId.value]);
        assert m2[|m1|..] == [o.parentId.value];
      } else {
        EventIds([]);
        assert m2[|m1|..] == [];
      }
    } else if o.id in Parents(opts) {
      var kids := ChildIds(opts, o.id, m1, false);
      EventIds(kids);
      assert m2[|m1|..] == kids;
    } else {
      EventIds([]);
      assert m2[|m1|..] == [];
    }
  }

  /**
   Toggling an unselected option while under the limit only appends: `o.id`
   right after the old model, then whatever the group adds; every appended
   id is announced with `Added`, in order, and nothing is removed.
   */
  lemma SelectAppendsGroup(st: State, o: MultiOption)
    requires o.id !in st.model
    requires UnderLimit(st.settings, |st.model|)
    ensures var r := SetSelected(st, o);
      var m := st.model;
      && |r.state.model| > |m|
      && r.state.model[..|m| + 1] == m + [o.id]
      && r.events == AddedEvents(r.state.model[|m|..]) + ToggleEvents(st.settings, r.state.isVisible)
      && AddedIds(r.events) == r.state.model[|m|..]
      && RemovedIds(r.events) == []
      && r.state.isVisible == (st.isVisible != st.settings.closeOnSelect)
  {
    assert SetSelected(st, o) == Select(st, o);
    SelectOnlyAppends(st, o);
  }

  lemma SelectOnlyAppends(st: State, o: MultiOption)
    ensures var r := Select(st, o);
      var m := st.model;
      && |r.state.model| > |m|
      && r.state.model[..|m| + 1] == m + [o.id]
      && r.events == AddedEvents(r.state.model[|m|..]) + ToggleEvents(st.settings, r.state.isVisible)
      && AddedIds(r.events) == r.state.model[|m|..]
      && RemovedIds(r.events) == []
      && r.state.isVisible == (st.isVisible != st.settings.closeOnSelect)
  {
    var m := st.model;
    var m1 := m + [o.id];
    AddRelatedAppends(st.options, o, m1);
    var (m2, evs) := AddRelated(st.options, o, m1);
    var evs1 := [Added(o.id)] + evs;
    AddedIdsAppend([Added(o.id)], evs);
    FinishIds(st.(model := m2), evs1);
    PrefixExtend(m, o.id, m2);
    assert m2[|m|..] == [o.id] + m2[|m1|..];
    assert AddedEvents(m2[|m|..]) == evs1;
    assert Select(st, o) == Finish(st.(model := m2), evs1);
  }

  /** A sequence that starts with `m + [x]` continues `m` with `x` and its own tail. */
  lemma PrefixExtend(m: seq<int>, x: int, m2: seq<int>)
    requires |m2| >= |m| + 1 && m2[..|m| + 1] == m + [x]
    ensures m2[|m|..] == [x] + m2[|m| + 1..]
  {
    assert m2[|m|] == (m + [x])[|m|];
  }

  /**
   What the group adds after `o.id` on a select under the limit: the parent
   when that completes the group, every missing child in option order for a
   parent, nothing otherwise.
   */
  lemma SelectGroupShape(st: State, o: MultiOption)
    requires o.id !in st.model
    requires UnderLimit(st.settings, |st.model|)
    ensures var r := SetSelected(st, o);
      var m1 := st.model + [o.id];
      && (HasTruthyParent(o) && SiblingsSelected(st.options, o, m1) ==>
            r.state.model == m1 + [o.parentId.value])
      && (HasTruthyParent(o) && !SiblingsSelected(st.options, o, m1) ==> r.state.model == m1)
      && (!HasTruthyParent(o) && o.id in Parents(st.options) ==>
            r.state.model == m1 + ChildIds(st.options, o.id, m1, false)
            && IsSubsequence(r.state.model[|m1|..], Ids(st.options))
            && forall x :: IsChildOf(st.options, x, o.id) ==> x in r.state.model)
      && (!HasTruthyParent(o) && o.id !in Parents(st.options) ==> r.state.model == m1)
  {
    var m1 := st.model + [o.id];
    AddRelatedCases(st.options, o, m1);
    var kids := ChildIds(st.options, o.id, m1, false);
    ChildIdsInOrder(st.options, o.id, m1, false);
    assert (m1 + kids)[|m1|..] == kids;
    var (m2, evs) := AddRelated(st.options, o, m1);
    SelectEvents(st, o, m2, evs);
  }

  /** The child ids come in option order: they form a subsequence of the option ids. */
  lemma {:induction false} ChildIdsInOrder(opts: seq<MultiOption>, p: int, m: seq<int>, inModel: bool)
    ensures IsSubsequence(ChildIds(opts, p, m, inModel), Ids(opts))
    decreases |opts|
  {
    if |opts| > 0 {
      var rest := ChildIds(opts[1..], p, m, inModel);
      ChildIdsInOrder(opts[1..], p, m, inModel);
      assert Ids(opts) == [opts[0].id] + Ids(opts[1..]);
      if opts[0].parentId == Some(p) && (opts[0].id in m) == inModel {
        assert ([opts[0].id] + rest)[1..] == rest;
      } else {
        assert ChildIds(opts, p, m, inModel) == rest;
        SubsequenceSkip(rest, Ids(opts[1..]), opts[0].id);
      }
    }
  }

  /** The outcome of a select is `Finish` on the appended model; its ids are the option's and the appended ones. */
  lemma SelectEvents(st: State, o: MultiOption, m2: seq<int>, evs: seq<Event>)
    requires o.id !in st.model && UnderLimit(st.settings, |st.model|)
    requires (m2, evs) == AddRelated(st.options, o, st.model + [o.id])
    ensures SetSelected(st, o) == Finish(st.(model := m2), [Added(o.id)] + evs)
    ensures AddedIds(SetSelected(st, o).events) == [o.id] + AddedIds(evs)
    ensures RemovedIds(SetSelected(st, o).events) == RemovedIds(evs)
  {
    AddedIdsAppend([Added(o.id)], evs);
    FinishIds(st.(model := m2), [Added(o.id)] + evs);
  }

  /** Which of the three related appends happens, by the kind of option. */
  lemma AddRelatedCases(opts: seq<MultiOption>, o: MultiOption, m1: seq<int>)
    ensures var m2 := AddRelated(opts, o, m1).0;
      && (HasTruthyParent(o) && SiblingsSelected(opts, o, m1) ==> m2 == m1 + [o.parentId.value])
      && (HasTruthyParent(o) && !SiblingsSelected(opts, o, m1) ==> m2 == m1)
      && (!HasTruthyParent(o) && o.id in Parents(opts) ==>
            m2 == m1 + ChildIds(opts, o.id, m1, false)
            && IsSubsequence(ChildIds(opts, o.id, m1, false), Ids(opts))
            && forall x :: IsChildOf(opts, x, o.id) ==> x in m2)
      && (!HasTruthyParent(o) && o.id !in Parents(opts) ==> m2 == m1)
  {
    if !HasTruthyParent(o) && o.id in Parents(opts) {
      var m2 := AddRelated(opts, o, m1).0;
      var kids := ChildIds(opts, o.id, m1, false);
      ChildIdsInOrder(opts, o.id, m1, false);
      forall x | IsChildOf(opts, x, o.id) ensures x in m2 {
        assert x in m1 || x in kids;
      }
    }
  }

  // ---------------------------------------------------------------------------
  // Limit reached

  /** Without auto-unselect, a full selection refuses the option: nothing changes but the event. */
  lemma LimitRejects(st: State, o: MultiOption)
    requires o.id !in st.model
    requires !UnderLimit(st.settings, |st.model|) && !st.settings.autoUnselect
    ensures SetSelected(st, o) == Step(st, [LimitReached(|st.model|)])
  {
  }

  /**
   With auto-unselect, a full selection takes the option and evicts the
   oldest entry: the length is kept, the new id is last, the old head is
   announced as removed (no group propagation either way).
   */
  lemma LimitEvictsOldest(st: State, o: MultiOption)
    requires o.id !in st.model
    requires !UnderLimit(st.settings, |st.model|) && st.settings.autoUnselect
    requires |st.model| > 0
    ensures var r := SetSelected(st, o);
      && |r.state.model| == |st.model|
      && r.state.model == st.model[1..] + [o.id]
      && r.events == [Added(o.id), Removed(st.model[0])] + ToggleEvents(st.settings, r.state.isVisible)
      && r.state.isVisible == (st.isVisible != st.settings.closeOnSelect)
  {
    var m1 := st.model + [o.id];
    assert m1[1..] == st.model[1..] + [o.id];
  }

  // ---------------------------------------------------------------------------
  // The group invariant

  /** The witness index of an option in the list. */
  lemma IndexOfOption(opts: seq<MultiOption>, o: MultiOption) returns (k: nat)
    requires o in opts
    ensures k < |opts| && opts[k] == o
  {
    k :| 0 <= k < |opts| && opts[k] == o;
  }

  /**
   Under well-formed options, a change of the model that does not touch `q`
   nor any child of `q` keeps `q`'s group consistent.
   */
  lemma GroupFrame(opts: seq<MultiOption>, m: seq<int>, m': seq<int>, q: int)
    requires q in m <==> q in m'
    requires forall i :: 0 <= i < |opts| && opts[i].parentId == Some(q) ==> (opts[i].id in m <==> opts[i].id in m')
    ensures AllChildrenIn(opts, q, m) <==> AllChildrenIn(opts, q, m')
  {
  }

  /** In a two-level option list a child is never itself a parent. */
  lemma ChildIsNoParent(opts: seq<MultiOption>, i: int)
    requires WellFormed(opts) && 0 <= i < |opts| && opts[i].parentId.Some?
    ensures opts[i].id !in Parents(opts)
  {
  }

  /** A toggle that selects a child keeps the invariant. */
  lemma SelectChildKeeps(opts: seq<MultiOption>, o: MultiOption, m: seq<int>, m2: seq<int>)
    requires WellFormed(opts) && o in opts && HasTruthyParent(o)
    requires SelectionInvariant(opts, m) && o.id !in m
    requires m2 == AddRelated(opts, o, m + [o.id]).0
    ensures SelectionInvariant(opts, m2)
  {
    var k := IndexOfOption(opts, o);
    var c, p := o.id, o.parentId.value;
    var m1 := m + [c];
    assert p in Parents(opts) by { assert opts[k].parentId == Some(p); }
    assert c !in Parents(opts);
    assert p != c;
    assert !AllChildrenIn(opts, p, m) by { assert opts[k].parentId == Some(p) && opts[k].id !in m; }
    assert p !in m;
    NoDupAppend(m, [c]);
    forall i | 0 <= i < |opts| && opts[i].id == c ensures i == k { }
    if SiblingsSelected(opts, o, m1) {
      assert m2 == m1 + [p];
      NoDupAppend(m1, [p]);
      forall q | q in Parents(opts) ensures q in m2 <==> AllChildrenIn(opts, q, m2) {
        if q == p {
          forall i | 0 <= i < |opts| && opts[i].parentId == Some(p) ensures opts[i].id in m2 {
            if opts[i].id != c {
              assert opts[i].id in m1;
            }
          }
        } else {
          forall i | 0 <= i < |opts| && opts[i].parentId == Some(q) ensures opts[i].id in m <==> opts[i].id in m2 {
            assert opts[i].id != c;
            ChildIsNoParent(opts, i);
          }
          GroupFrame(opts, m, m2, q);
        }
      }
    } else {
      assert m2 == m1;
      forall q | q in Parents(opts) ensures q in m2 <==> AllChildrenIn(opts, q, m2) {
        if q == p {
          var i :| 0 <= i < |opts| && opts[i].id != o.id && opts[i].parentId == o.parentId && opts[i].id !in m1;
          assert !AllChildrenIn(opts, p, m2);
        } else {
          forall i | 0 <= i < |opts| && opts[i].parentId == Some(q) ensures opts[i].id in m <==> opts[i].id in m2 {
            assert opts[i].id != c;
          }
          GroupFrame(opts, m, m2, q);
        }
      }
    }
  }

  /** A toggle that selects a parent keeps the invariant. */
  lemma SelectParentKeeps(opts: seq<MultiOption>, o: MultiOption, m: seq<int>, m2: seq<int>)
    requires WellFormed(opts) && o in opts && o.id in Parents(opts)
    requires SelectionInvariant(opts, m) && o.id !in m
    requires m2 == AddRelated(opts, o, m + [o.id]).0
    ensures SelectionInvariant(opts, m2)
  {
    var k := IndexOfOption(opts, o);
    var c := o.id;
    var m1 := m + [c];
    assert o.parentId == None;
    var kids := ChildIds(opts, c, m1, false);
    assert m2 == m1 + kids;
    NoDupAppend(m, [c]);
    ChildIdsNoDup(opts, c, m1, false);
    NoDupAppend(m1, kids);
    forall q | q in Parents(opts) ensures q in m2 <==> AllChildrenIn(opts, q, m2) {
      if q == c {
        forall i | 0 <= i < |opts| && opts[i].parentId == Some(c) ensures opts[i].id in m2 {
          if opts[i].id !in m1 {
            assert IsChildOf(opts, opts[i].id, c);
            assert opts[i].id in kids;
          }
        }
      } else {
        forall x | x in kids ensures x !in Parents(opts) && x != q {
          var i :| 0 <= i < |opts| && opts[i].id == x && opts[i].parentId == Some(c);
          ChildIsNoParent(opts, i);
        }
        forall i | 0 <= i < |opts| && opts[i].parentId == Some(q) ensures opts[i].id in m <==> opts[i].id in m2 {
          assert opts[i].id != c;
          forall j | 0 <= j < |opts| && opts[j].id == opts[i].id ensures opts[j].parentId != Some(c) {
            assert i == j;
          }
          assert opts[i].id !in kids;
        }
        GroupFrame(opts, m, m2, q);
      }
    }
  }

  /** The ids of a parent's children are distinct when option ids are. */
  lemma {:induction false} ChildIdsNoDup(opts: seq<MultiOption>, p: int, m: seq<int>, inModel: bool)
    requires UniqueIds(opts)
    ensures NoDup(ChildIds(opts, p, m, inModel))
    decreases |opts|
  {
    if |opts| > 0 {
      assert UniqueIds(opts[1..]) by {
        forall i, j | 0 <= i < |opts[1..]| && 0 <= j < |opts[1..]| && opts[1..][i].id == opts[1..][j].id
          ensures i == j
        {
          assert opts[1..][i] == opts[i + 1] && opts[1..][j] == opts[j + 1];
        }
      }
      ChildIdsNoDup(opts[1..], p, m, inModel);
      var rest := ChildIds(opts[1..], p, m, inModel);
      forall x | x in rest ensures x != opts[0].id {
        var i :| 0 <= i < |opts[1..]| && opts[1..][i].id == x && opts[1..][i].parentId == Some(p);
        assert opts[1..][i] == opts[i + 1];
      }
      var o := opts[0];
      if o.parentId == Some(p) && (o.id in m) == inModel {
        NoDupCons(o.id, rest);
      }
    }
  }

  /** A toggle that selects an option outside every group keeps the invariant. */
  lemma SelectPlainKeeps(opts: seq<MultiOption>, o: MultiOption, m: seq<int>, m2: seq<int>)
    requires WellFormed(opts) && o in opts && o.parentId == None && o.id !in Parents(opts)
    requires SelectionInvariant(opts, m) && o.id !in m
    requires m2 == AddRelated(opts, o, m + [o.id]).0
    ensures SelectionInvariant(opts, m2)
  {
    var k := IndexOfOption(opts, o);
    assert m2 == m + [o.id];
    NoDupAppend(m, [o.id]);
    forall q | q in Parents(opts) ensures q in m2 <==> AllChildrenIn(opts, q, m2) {
      forall i | 0 <= i < |opts| && opts[i].parentId == Some(q) ensures opts[i].id in m <==> opts[i].id in m2 {
        assert i != k;
      }
      GroupFrame(opts, m, m2, q);
    }
  }

  /** A toggle that deselects an option keeps the invariant. */
  lemma DeselectKeeps(st: State, o: MultiOption)
    requires WellFormed(st.options) && o in st.options
    requires SelectionInvariant(st.options, st.model) && o.id in st.model
    ensures SelectionInvariant(st.options, SetSelected(st, o).state.model)
  {
    var opts, m := st.options, st.model;
    var k := IndexOfOption(opts, o);
    assert o.parentId != Some(0) by { assert opts[k] == o; }
    DeselectRemovesGroup(st, o);
    var m2 := SetSelected(st, o).state.model;
    if o.parentId.Some? {
      DeselectChildKeeps(opts, o, m);
    } else if o.id in Parents(opts) {
      DeselectParentKeeps(opts, o, m);
    } else {
      DeselectPlainKeeps(opts, o, m);
    }
  }

  /** Deselecting a child drops the parent with it, which keeps the parent's group consistent. */
  lemma DeselectChildKeeps(opts: seq<MultiOption>, o: MultiOption, m: seq<int>)
    requires WellFormed(opts) && o in opts && o.parentId.Some?
    requires GroupConsistent(opts, m) && o.id in m
    requires NoDup(m)
    ensures SelectionInvariant(opts, FilterOut(m, DeselectGroup(opts, o, m)))
  {
    var m2 := FilterOut(m, DeselectGroup(opts, o, m));
    FilterOutNoDup(m, DeselectGroup(opts, o, m));
    var k := IndexOfOption(opts, o);
    var c, p := o.id, o.parentId.value;
    var m1 := FilterOut(m, [c]);
    ChildIsNoParent(opts, k);
    assert p in Parents(opts) by { assert opts[k].parentId == Some(p); }
    assert DeselectGroup(opts, o, m) == [c] + (if p in m1 then [p] else []);
    forall q | q in Parents(opts) ensures q in m2 <==> AllChildrenIn(opts, q, m2) {
      if q == p {
        assert p !in m2;
        assert !AllChildrenIn(opts, p, m2) by { assert opts[k].parentId == Some(p) && opts[k].id !in m2; }
      } else {
        forall i | 0 <= i < |opts| && opts[i].parentId == Some(q) ensures opts[i].id in m <==> opts[i].id in m2 {
          assert i != k;
          ChildIsNoParent(opts, i);
        }
        GroupFrame(opts, m, m2, q);
      }
    }
  }

  /** Deselecting a parent drops all its selected children, so its group stays consistent. */
  lemma DeselectParentKeeps(opts: seq<MultiOption>, o: MultiOption, m: seq<int>)
    requires WellFormed(opts) && o in opts && o.parentId == None && o.id in Parents(opts)
    requires GroupConsistent(opts, m) && o.id in m
    requires NoDup(m)
    ensures SelectionInvariant(opts, FilterOut(m, DeselectGroup(opts, o, m)))
  {
    var m2 := FilterOut(m, DeselectGroup(opts, o, m));
    FilterOutNoDup(m, DeselectGroup(opts, o, m));
    var k := IndexOfOption(opts, o);
    var c := o.id;
    var m1 := FilterOut(m, [c]);
    var kids := ChildIds(opts, c, m1, true);
    assert DeselectGroup(opts, o, m) == [c] + kids;
    forall q | q in Parents(opts) ensures q in m2 <==> AllChildrenIn(opts, q, m2) {
      if q == c {
        var j :| 0 <= j < |opts| && opts[j].parentId == Some(c);
        assert j != k;
        assert opts[j].id !in m2 by {
          assert opts[j].id != c;
          assert opts[j].id in m ==> opts[j].id in m1 && IsChildOf(opts, opts[j].id, c);
        }
      } else {
        forall x | x in kids ensures x != q {
          var i :| 0 <= i < |opts| && opts[i].id == x && opts[i].parentId == Some(c);
          ChildIsNoParent(opts, i);
        }
        forall i | 0 <= i < |opts| && opts[i].parentId == Some(q) ensures opts[i].id in m <==> opts[i].id in m2 {
          assert i != k;
          forall j | 0 <= j < |opts| && opts[j].id == opts[i].id ensures opts[j].parentId != Some(c) {
            assert i == j;
          }
          assert opts[i].id !in kids;
        }
        GroupFrame(opts, m, m2, q);
      }
    }
  }

  /** Deselecting an option outside every group touches no group. */
  lemma DeselectPlainKeeps(opts: seq<MultiOption>, o: MultiOption, m: seq<int>)
    requires WellFormed(opts) && o in opts && o.parentId == None && o.id !in Parents(opts)
    requires GroupConsistent(opts, m) && o.id in m
    requires NoDup(m)
    ensures SelectionInvariant(opts, FilterOut(m, DeselectGroup(opts, o, m)))
  {
    var m2 := FilterOut(m, DeselectGroup(opts, o, m));
    FilterOutNoDup(m, DeselectGroup(opts, o, m));
    var k := IndexOfOption(opts, o);
    assert DeselectGroup(opts, o, m) == [o.id];
    forall q | q in Parents(opts) ensures q in m2 <==> AllChildrenIn(opts, q, m2) {
      forall i | 0 <= i < |opts| && opts[i].parentId == Some(q) ensures opts[i].id in m <==> opts[i].id in m2 {
        assert i != k;
      }
      GroupFrame(opts, m, m2, q);
    }
  }

  /**
   The group invariant: on a well-formed option list, while the limit cannot
   evict (no limit, or no auto-unselect), every toggle keeps the selection
   duplicate-free and keeps "a parent id is selected iff all its children
   are".
   */
  lemma GroupInvariantPreserved(st: State, o: MultiOption)
    requires WellFormed(st.options) && o in st.options
    requires st.settings.selectionLimit == 0 || !st.settings.autoUnselect
    requires SelectionInvariant(st.options, st.model)
    ensures SelectionInvariant(st.options, SetSelected(st, o).state.model)
  {
    var opts, m := st.options, st.model;
    if o.id in m {
      DeselectKeeps(st, o);
    } else if UnderLimit(st.settings, |m|) {
      var m2 := AddRelated(opts, o, m + [o.id]).0;
      assert SetSelected(st, o).state.model == m2;
      var k := IndexOfOption(opts, o);
      if HasTruthyParent(o) {
        SelectChildKeeps(opts, o, m, m2);
      } else if o.id in Parents(opts) {
        SelectParentKeeps(opts, o, m, m2);
      } else {
        assert o.parentId == None by { assert opts[k] == o; }
        SelectPlainKeeps(opts, o, m, m2);
      }
    } else {
      assert SetSelected(st, o).state == st;
    }
  }

  // ---------------------------------------------------------------------------
  // Round trip

  /**
   Toggling an unselected option that is not a parent on and then off gives
   back exactly the state it started from, and the second toggle announces
   as removed exactly the ids the first announced as added.
   */
  lemma ToggleTwiceRestores(st: State, o: MultiOption)
    requires o in st.options
    requires o.id !in st.model && o.id !in Parents(st.options)
    requires o.parentId != Some(0)
    requires GroupConsistent(st.options, st.model)
    requires UnderLimit(st.settings, |st.model|)
    ensures var r1 := SetSelected(st, o);
      var r2 := SetSelected(r1.state, o);
      && r2.state == st
      && RemovedIds(r2.events) == AddedIds(r1.events)
      && AddedIds(r2.events) == []
  {
    var m := st.model;
    var extra := SelectNonParentShape(st, o);
    SelectAppendsGroup(st, o);
    var r1 := SetSelected(st, o);
    assert r1.state.model[|m|..] == [o.id] + extra;
    DeselectRemovesGroupShape(r1.state, o, m, extra);
  }

  /** Selecting a non-parent appends `o.id` and at most its parent, which was not selected before. */
  lemma SelectNonParentShape(st: State, o: MultiOption) returns (extra: seq<int>)
    requires o in st.options
    requires o.id !in st.model && o.id !in Parents(st.options)
    requires o.parentId != Some(0)
    requires GroupConsistent(st.options, st.model)
    requires UnderLimit(st.settings, |st.model|)
    ensures SetSelected(st, o).state.model == st.model + [o.id] + extra
    ensures extra == [] || (o.parentId.Some? && extra == [o.parentId.value] && o.parentId.value !in st.model)
    ensures o.parentId.Some? ==> o.parentId.value !in st.model
  {
    var opts, m, c := st.options, st.model, o.id;
    var k := IndexOfOption(opts, o);
    SelectGroupShape(st, o);
    var m1 := SetSelected(st, o).state.model;
    if o.parentId.Some? {
      var p := o.parentId.value;
      assert p in Parents(opts) by { assert opts[k].parentId == Some(p); }
      assert !AllChildrenIn(opts, p, m) by { assert opts[k].parentId == Some(p) && opts[k].id !in m; }
      extra := if m1 == m + [c] then [] else [p];
    } else {
      extra := [];
    }
  }

  /** The second toggle of the round trip, with the model written as old part plus appended part. */
  lemma DeselectRemovesGroupShape(st: State, o: MultiOption, m: seq<int>, extra: seq<int>)
    requires st.model == m + [o.id] + extra
    requires o.id !in m && o.id !in Parents(st.options) && o.parentId != Some(0)
    requires extra == [] || (o.parentId.Some? && extra == [o.parentId.value] && o.parentId.value !in m)
    requires o.parentId.Some? ==> o.parentId.value !in m
    ensures SetSelected(st, o).state == st.(model := m, isVisible := st.isVisible != st.settings.closeOnSelect)
    ensures RemovedIds(SetSelected(st, o).events) == [o.id] + extra
    ensures AddedIds(SetSelected(st, o).events) == []
  {
    assert o.id in st.model;
    assert SetSelected(st, o) == Deselect(st, o);
    DeselectShape(st, o, m, extra);
  }

  lemma DeselectShape(st: State, o: MultiOption, m: seq<int>, extra: seq<int>)
    requires st.model == m + [o.id] + extra
    requires o.id !in m && o.id !in Parents(st.options) && o.parentId != Some(0)
    requires extra == [] || (o.parentId.Some? && extra == [o.parentId.value] && o.parentId.value !in m)
    requires o.parentId.Some? ==> o.parentId.value !in m
    ensures Deselect(st, o).state == st.(model := m, isVisible := st.isVisible != st.settings.closeOnSelect)
    ensures RemovedIds(Deselect(st, o).events) == [o.id] + extra
    ensures AddedIds(Deselect(st, o).events) == []
  {
    var c := o.id;
    assert st.model == m + ([c] + extra);
    IndexOfAppend(m, [c] + extra, c);
    var m1 := RemoveAt(st.model, |m|);
    assert m1 == m + extra;
    RemoveRelatedShape(st.options, o, m, extra);
    var (m2, evs) := RemoveRelated(st.options, o, m1);
    var evs1 := [Removed(c)] + evs;
    AddedIdsAppend([Removed(c)], evs);
    FinishIds(st.(model := m2), evs1);
    assert Deselect(st, o) == Finish(st.(model := m2), evs1);
  }

  lemma RemoveRelatedShape(opts: seq<MultiOption>, o: MultiOption, m: seq<int>, extra: seq<int>)
    requires o.id !in Parents(opts) && o.parentId != Some(0)
    requires extra == [] || (o.parentId.Some? && extra == [o.parentId.value] && o.parentId.value !in m)
    requires o.parentId.Some? ==> o.parentId.value !in m
    ensures RemoveRelated(opts, o, m + extra).0 == m
    ensures RemovedIds(RemoveRelated(opts, o, m + extra).1) == extra
    ensures AddedIds(RemoveRelated(opts, o, m + extra).1) == []
  {
    var (m2, evs) := RemoveRelated(opts, o, m + extra);
    if extra != [] {
      var p := o.parentId.value;
      IndexOfAppend(m, [p], p);
      assert ParentIndex(o, m + extra) == |m|;
      assert m2 == m;
      EventIds([p]);
      assert evs == RemovedEvents([p]);
    } else {
      assert m + extra == m;
      assert ParentIndex(o, m) == -1;
      EventIds([]);
    }
  }

  // ---------------------------------------------------------------------------
  // Quirks kept from the source

  /**
   A parentId of 0 is numeric but falsy: deselecting such an option removes
   whatever sits at position 0 of the remaining model, and announces it as
   `Removed(0)`, while the option's own group is never touched.
   */
  lemma ZeroParentDropsHead(st: State, o: MultiOption)
    requires o.parentId == Some(0) && o.id in st.model && NoDup(st.model)
    ensures var m1 := FilterOut(st.model, [o.id]);
      var r := SetSelected(st, o);
      && r.state.model == (if |m1| > 0 then m1[1..] else m1)
      && r.events[..2] == [Removed(o.id), Removed(0)]
  {
    RemoveFirstIsFilterOut(st.model, o.id);
    var m1 := RemoveAt(st.model, IndexOf(st.model, o.id));
    var m2 := RemoveAt(m1, 0);
    assert m2 == (if |m1| > 0 then m1[1..] else m1);
    assert RemoveRelated(st.options, o, m1) == (m2, [Removed(0)]);
    assert [Removed(o.id)] + [Removed(0)] == [Removed(o.id), Removed(0)];
    assert SetSelected(st, o) == Finish(st.(model := m2), [Removed(o.id), Removed(0)]);
  }

  /**
   With a parentId of 0 the on-then-off round trip fails: the second toggle
   also drops the oldest selected id.
   */
  lemma ZeroParentRoundTripLosesHead(st: State, o: MultiOption)
    requires o.parentId == Some(0) && o.id !in st.model && o.id !in Parents(st.options)
    requires UnderLimit(st.settings, |st.model|) && |st.model| > 0
    ensures SetSelected(SetSelected(st, o).state, o).state.model == st.model[1..]
  {
    var m := st.model;
    SelectGroupShape(st, o);
    var m1 := SetSelected(st, o).state.model;
    assert m1 == m + [o.id];
    IndexOfAppend(m, [o.id], o.id);
    assert RemoveAt(m1, |m|) == m;
  }
}

=== FILE: seqs.dfy ===
/**
 Sequence operations the selection logic is built from: the JavaScript array
 primitives it calls (`indexOf`, `splice(i, 1)`, `filter`) and the facts about
 them that the selection proofs rely on.
 */
module Seqs {

  /** `s.indexOf(x)`: the position of the first occurrence of `x`, or -1. */
  function IndexOf<T(==)>(s: seq<T>, x: T): (r: int)
    ensures -1 <= r < |s|
    ensures r == -1 <==> x !in s
    ensures 0 <= r ==> s[r] == x && x !in s[..r]
  {
    if |s| == 0 then -1
    else if s[0] == x then 0
    else
      var k := IndexOf(s[1..], x);
      assert k >= 0 ==> s[..k + 1] == [s[0]] + s[1..][..k];
      if k == -1 then -1 else k + 1
  }

  /** `s.splice(i, 1)`: drops the element at `i`; an index past the end changes nothing. */
  function RemoveAt<T>(s: seq<T>, i: nat): (r: seq<T>)
    ensures i < |s| ==> |r| == |s| - 1 && r[..i] == s[..i] && r[i..] == s[i + 1..]
    ensures i >= |s| ==> r == s
  {
    if i < |s| then s[..i] + s[i + 1..] else s
  }

  /** `s.filter(x => xs.indexOf(x) < 0)`: the elements of `s` absent from `xs`, in order. */
  function FilterOut<T(==,!new)>(s: seq<T>, xs: seq<T>): (r: seq<T>)
    ensures forall x :: x in r <==> x in s && x !in xs
    ensures |r| <= |s|
  {
    if |s| == 0 then []
    else if s[0] in xs then FilterOut(s[1..], xs)
    else [s[0]] + FilterOut(s[1..], xs)
  }

  /** `s.filter(x => xs.indexOf(x) >= 0)`: the elements of `s` present in `xs`, in order. */
  function KeepOnly<T(==,!new)>(s: seq<T>, xs: seq<T>): (r: seq<T>)
    ensures forall x :: x in r <==> x in s && x in xs
    ensures |r| <= |s|
  {
    if |s| == 0 then []
    else if s[0] in xs then [s[0]] + KeepOnly(s[1..], xs)
    else KeepOnly(s[1..], xs)
  }

  /** No element occurs twice. */
  predicate NoDup<T(==)>(s: seq<T>) {
    forall i, j :: 0 <= i < j < |s| ==> s[i] != s[j]
  }

  /** `a` is obtained from `b` by deleting elements: order is kept. */
  predicate IsSubsequence<T(==)>(a: seq<T>, b: seq<T>)
    decreases |b|
  {
    if |a| == 0 then true
    else if |b| == 0 then false
    else if a[0] == b[0] then IsSubsequence(a[1..], b[1..])
    else IsSubsequence(a, b[1..])
  }

  lemma {:induction false} FilterOutIsSubsequence<T(!new)>(s: seq<T>, xs: seq<T>)
    ensures IsSubsequence(FilterOut(s, xs), s)
    decreases |s|
  {
    if |s| > 0 {
      FilterOutIsSubsequence(s[1..], xs);
      if s[0] !in xs {
        assert ([s[0]] + FilterOut(s[1..], xs))[1..] == FilterOut(s[1..], xs);
      } else {
        SubsequenceSkip(FilterOut(s[1..], xs), s[1..], s[0]);
      }
    }
  }

  /** Prepending an element to the longer sequence keeps a subsequence relation. */
  lemma {:induction false} SubsequenceSkip<T>(a: seq<T>, b: seq<T>, x: T)
    requires IsSubsequence(a, b)
    ensures IsSubsequence(a, [x] + b)
    decreases |b|, 1
  {
    assert ([x] + b)[1..] == b;
    if |a| > 0 && a[0] == x {
      SubsequenceTail(a, b);
    }
  }

  /** Dropping the head of a non-empty subsequence keeps it a subsequence. */
  lemma {:induction false} SubsequenceTail<T>(a: seq<T>, b: seq<T>)
    requires |a| > 0
    requires IsSubsequence(a, b)
    ensures IsSubsequence(a[1..], b)
    decreases |b|, 0
  {
    assert [b[0]] + b[1..] == b;
    if a[0] == b[0] {
      SubsequenceSkip(a[1..], b[1..], b[0]);
    } else {
      SubsequenceTail(a, b[1..]);
      SubsequenceSkip(a[1..], b[1..], b[0]);
    }
  }

  lemma {:induction false} FilterOutNoDup<T(!new)>(s: seq<T>, xs: seq<T>)
    requires NoDup(s)
    ensures NoDup(FilterOut(s, xs))
    decreases |s|
  {
    if |s| > 0 {
      NoDupTail(s);
      FilterOutNoDup(s[1..], xs);
      if s[0] !in xs {
        NoDupCons(s[0], FilterOut(s[1..], xs));
      }
    }
  }

  /** The tail of a duplicate-free sequence is duplicate-free and lacks the head. */
  lemma NoDupTail<T>(s: seq<T>)
    requires NoDup(s) && |s| > 0
    ensures NoDup(s[1..]) && s[0] !in s[1..]
  {
    forall i, j | 0 <= i < j < |s[1..]| ensures s[1..][i] != s[1..][j] {
      assert s[1..][i] == s[i + 1] && s[1..][j] == s[j + 1];
    }
    forall k | 0 <= k < |s[1..]| ensures s[1..][k] != s[0] {
      assert s[1..][k] == s[k + 1];
    }
  }

  lemma NoDupCons<T>(x: T, t: seq<T>)
    requires NoDup(t) && x !in t
    ensures NoDup([x] + t)
  {
    var u := [x] + t;
    forall i, j | 0 <= i < j < |u| ensures u[i] != u[j] {
      assert u[j] == t[j - 1];
      if i > 0 {
        assert u[i] == t[i - 1];
      }
    }
  }

  lemma NoDupAppend<T>(a: seq<T>, b: seq<T>)
    requires NoDup(a) && NoDup(b)
    requires forall x :: x in a ==> x !in b
    ensures NoDup(a + b)
  {
    var u := a + b;
    forall i, j | 0 <= i < j < |u| ensures u[i] != u[j] {
      if j < |a| {
        assert u[i] == a[i] && u[j] == a[j];
      } else if i >= |a| {
        assert u[i] == b[i - |a|] && u[j] == b[j - |a|];
      } else {
        assert u[i] == a[i] && u[j] == b[j - |a|];
        assert a[i] in a;
      }
    }
  }

  /** Removing the first occurrence of an element that occurs once is filtering it out. */
  lemma {:induction false} RemoveFirstIsFilterOut<T(!new)>(s: seq<T>, x: T)
    requires NoDup(s) && x in s
    ensures RemoveAt(s, IndexOf(s, x)) == FilterOut(s, [x])
    decreases |s|
  {
    NoDupTail(s);
    if s[0] == x {
      assert IndexOf(s, x) == 0;
      assert RemoveAt(s, 0) == s[1..];
      assert FilterOut(s, [x]) == FilterOut(s[1..], [x]);
      FilterOutAbsent(s[1..], [x]);
    } else {
      assert x in s[1..];
      RemoveFirstIsFilterOut(s[1..], x);
      var k := IndexOf(s[1..], x);
      assert IndexOf(s, x) == k + 1;
      assert FilterOut(s, [x]) == [s[0]] + FilterOut(s[1..], [x]);
      RemoveAtCons(s, k);
    }
  }

  /** Removing past the head is removing from the tail. */
  lemma RemoveAtCons<T>(s: seq<T>, k: nat)
    requires k + 1 < |s|
    ensures RemoveAt(s, k + 1) == [s[0]] + RemoveAt(s[1..], k)
  {
    var t := s[1..];
    assert s[..k + 1] == [s[0]] + t[..k];
    assert s[k + 2..] == t[k + 1..];
    calc {
      RemoveAt(s, k + 1);
      s[..k + 1] + s[k + 2..];
      ([s[0]] + t[..k]) + t[k + 1..];
      [s[0]] + (t[..k] + t[k + 1..]);
      [s[0]] + RemoveAt(t, k);
    }
  }

  /** Filtering out values that do not occur changes nothing. */
  lemma {:induction false} FilterOutAbsent<T(!new)>(s: seq<T>, xs: seq<T>)
    requires forall x :: x in s ==> x !in xs
    ensures FilterOut(s, xs) == s
    decreases |s|
  {
    if |s| > 0 {
      assert s[0] in s;
      assert forall x :: x in s[1..] ==> x in s;
      FilterOutAbsent(s[1..], xs);
      assert [s[0]] + s[1..] == s;
    }
  }

  /** Filtering out a list that covers `s` leaves nothing. */
  lemma {:induction false} FilterOutCovered<T(!new)>(s: seq<T>, xs: seq<T>)
    requires forall x :: x in s ==> x in xs
    ensures FilterOut(s, xs) == []
    decreases |s|
  {
    if |s| > 0 {
      assert s[0] in s;
      assert forall x :: x in s[1..] ==> x in s;
      FilterOutCovered(s[1..], xs);
    }
  }

  /** Keeping the elements of a list that covers `s` keeps all of `s`. */
  lemma {:induction false} KeepOnlyCovered<T(!new)>(s: seq<T>, xs: seq<T>)
    requires forall x :: x in s ==> x in xs
    ensures KeepOnly(s, xs) == s
    decreases |s|
  {
    if |s| > 0 {
      assert s[0] in s;
      assert forall x :: x in s[1..] ==> x in s;
      KeepOnlyCovered(s[1..], xs);
      assert KeepOnly(s, xs) == [s[0]] + KeepOnly(s[1..], xs);
      assert [s[0]] + s[1..] == s;
    }
  }

  /** Keeping only values that do not occur leaves nothing. */
  lemma {:induction false} KeepOnlyAbsent<T(!new)>(s: seq<T>, xs: seq<T>)
    requires forall x :: x in s ==> x !in xs
    ensures KeepOnly(s, xs) == []
    decreases |s|
  {
    if |s| > 0 {
      assert s[0] in s;
      assert forall x :: x in s[1..] ==> x in s;
      KeepOnlyAbsent(s[1..], xs);
    }
  }

  /** Two successive filters are one filter by the concatenated exclusion list. */
  lemma {:induction false} FilterOutTwice<T(!new)>(s: seq<T>, a: seq<T>, b: seq<T>)
    ensures FilterOut(FilterOut(s, a), b) == FilterOut(s, a + b)
    decreases |s|
  {
    if |s| > 0 {
      FilterOutTwice(s[1..], a, b);
      if s[0] !in a {
        assert FilterOut([s[0]] + FilterOut(s[1..], a), b)
            == (if s[0] in b then [] else [s[0]]) + FilterOut(FilterOut(s[1..], a), b) by {
          var t := [s[0]] + FilterOut(s[1..], a);
          assert t[0] == s[0] && t[1..] == FilterOut(s[1..], a);
        }
      }
    }
  }

  /** Every element of `s` is either kept or dropped: the two filters split `s`. */
  lemma {:induction false} FilterSplitsLength<T(!new)>(s: seq<T>, xs: seq<T>)
    ensures |FilterOut(s, xs)| + |KeepOnly(s, xs)| == |s|
    decreases |s|
  {
    if |s| > 0 {
      FilterSplitsLength(s[1..], xs);
    }
  }

  /** How many times each value survives a filter: none if excluded, all otherwise. */
  lemma {:induction false} FilterOutMultiset<T(!new)>(s: seq<T>, xs: seq<T>)
    ensures forall x :: multiset(FilterOut(s, xs))[x] == if x in xs then 0 else multiset(s)[x]
    decreases |s|
  {
    if |s| > 0 {
      FilterOutMultiset(s[1..], xs);
      assert s == [s[0]] + s[1..];
      assert multiset(s) == multiset{s[0]} + multiset(s[1..]);
    }
  }

  /** Keeping the members of `xs` keeps every copy of them and no copy of anything else. */
  lemma {:induction false} KeepOnlyMultiset<T(!new)>(s: seq<T>, xs: seq<T>)
    ensures forall x :: multiset(KeepOnly(s, xs))[x] == if x in xs then multiset(s)[x] else 0
    decreases |s|
  {
    if |s| > 0 {
      KeepOnlyMultiset(s[1..], xs);
      assert s == [s[0]] + s[1..];
      assert multiset(s) == multiset{s[0]} + multiset(s[1..]);
    }
  }

  /** Keeping the members of `xs` keeps their order in `s`. */
  lemma {:induction false} KeepOnlyIsSubsequence<T(!new)>(s: seq<T>, xs: seq<T>)
    ensures IsSubsequence(KeepOnly(s, xs), s)
    decreases |s|
  {
    if |s| > 0 {
      KeepOnlyIsSubsequence(s[1..], xs);
      if s[0] in xs {
        assert ([s[0]] + KeepOnly(s[1..], xs))[1..] == KeepOnly(s[1..], xs);
      } else {
        SubsequenceSkip(KeepOnly(s[1..], xs), s[1..], s[0]);
      }
    }
  }

  /** The first occurrence in `a + b` of a value missing from `a` lies in `b`. */
  lemma {:induction false} IndexOfAppend<T>(a: seq<T>, b: seq<T>, x: T)
    requires x !in a && x in b
    ensures IndexOf(a + b, x) == |a| + IndexOf(b, x)
    decreases |a|
  {
    if |a| > 0 {
      assert (a + b)[0] == a[0] && (a + b)[1..] == a[1..] + b;
      IndexOfAppend(a[1..], b, x);
    } else {
      assert a + b == b;
    }
  }
}

=== FILE: text.dfy ===
/**
 The two string conversions the button caption uses: `Array.prototype.join`
 with the ", " separator, and the decimal rendering of a count when it is
 concatenated with a string. Each comes with the reading that undoes it.
 */
module Text {
  import Seqs

  /** The separator the caption joins names with. */
  const ListSeparator: string := ", "

  /** `xs.join(sep)`: the empty list joins to the empty string. */
  function Join(xs: seq<string>, sep: string): string
  {
    if |xs| == 0 then ""
    else if |xs| == 1 then xs[0]
    else xs[0] + sep + Join(xs[1..], sep)
  }

  /** The total length of the items of a list. */
  function SumLengths(xs: seq<string>): nat
  {
    if |xs| == 0 then 0 else |xs[0]| + SumLengths(xs[1..])
  }

  /** Where item `k` starts in the join of `xs` with a separator of length `sepLen`. */
  function Offset(xs: seq<string>, sepLen: nat, k: nat): nat
    requires k < |xs|
  {
    if k == 0 then 0 else |xs[0]| + sepLen + Offset(xs[1..], sepLen, k - 1)
  }

  /** A join is as long as its items plus one separator between each neighbouring pair. */
  lemma {:induction false} JoinLength(xs: seq<string>, sep: string)
    requires |xs| > 0
    ensures |Join(xs, sep)| == SumLengths(xs) + (|xs| - 1) * |sep|
    decreases |xs|
  {
    if |xs| > 1 {
      JoinLength(xs[1..], sep);
      assert SumLengths(xs) == |xs[0]| + SumLengths(xs[1..]);
    } else {
      assert SumLengths(xs[1..]) == 0;
    }
  }

  /** Item `k` of the list sits at its offset in the join, whatever the items hold. */
  lemma {:induction false} JoinItemAt(xs: seq<string>, sep: string, k: nat)
    requires k < |xs|
    ensures var o := Offset(xs, |sep|, k);
      o + |xs[k]| <= |Join(xs, sep)| && Join(xs, sep)[o..o + |xs[k]|] == xs[k]
    decreases k
  {
    if |xs| > 1 {
      var head := xs[0] + sep;
      var rest := Join(xs[1..], sep);
      assert Join(xs, sep) == head + rest;
      if k > 0 {
        JoinItemAt(xs[1..], sep, k - 1);
        var o' := Offset(xs[1..], |sep|, k - 1);
        assert xs[1..][k - 1] == xs[k];
        SliceRight(head, rest, o', o' + |xs[k]|);
      } else {
        assert (head + rest)[..|xs[0]|] == xs[0];
      }
    }
  }

  /** Every item but the last is followed by the separator in the join. */
  lemma {:induction false} JoinSepAfter(xs: seq<string>, sep: string, k: nat)
    requires k + 1 < |xs|
    ensures var e := Offset(xs, |sep|, k) + |xs[k]|;
      e + |sep| <= |Join(xs, sep)| && Join(xs, sep)[e..e + |sep|] == sep
    decreases k
  {
    var head := xs[0] + sep;
    var rest := Join(xs[1..], sep);
    assert Join(xs, sep) == head + rest;
    if k > 0 {
      JoinSepAfter(xs[1..], sep, k - 1);
      var e' := Offset(xs[1..], |sep|, k - 1) + |xs[k]|;
      assert xs[1..][k - 1] == xs[k];
      SliceRight(head, rest, e', e' + |sep|);
    } else {
      assert (head + rest)[|xs[0]|..|xs[0]| + |sep|] == sep;
    }
  }

  /**
   Item `k` of `xs` sits in `j` at its offset for a join with `sep`, and
   unless it is the last item it is followed by `sep`.
   */
  predicate ListedAt(j: string, xs: seq<string>, sep: string, k: nat)
    requires k < |xs|
  {
    var o := Offset(xs, |sep|, k);
    && o + |xs[k]| <= |j| && j[o..o + |xs[k]|] == xs[k]
    && (k + 1 < |xs| ==> o + |xs[k]| + |sep| <= |j| && j[o + |xs[k]|..o + |xs[k]| + |sep|] == sep)
  }

  /** Every item of a join is listed at its offset, whatever the items hold. */
  lemma JoinListsAt(xs: seq<string>, sep: string, k: nat)
    requires k < |xs|
    ensures ListedAt(Join(xs, sep), xs, sep, k)
  {
    JoinItemAt(xs, sep, k);
    if k + 1 < |xs| {
      JoinSepAfter(xs, sep, k);
    }
  }

  /** A slice lying wholly in the right operand of a concatenation. */
  lemma SliceRight(a: string, b: string, i: nat, j: nat)
    requires i <= j <= |b|
    ensures (a + b)[|a| + i..|a| + j] == b[i..j]
  {
  }

  /** Reads a ", "-separated list back: cuts at every comma and drops one space after it. */
  function SplitList(s: string): (r: seq<string>)
    ensures |r| > 0
    decreases |s|
  {
    var i := Seqs.IndexOf(s, ',');
    if i == -1 then [s]
    else
      var next := if i + 1 < |s| && s[i + 1] == ' ' then i + 2 else i + 1;
      [s[..i]] + SplitList(s[next..])
  }

  /** A list of comma-free names is recovered from its ", " join. */
  lemma {:induction false} SplitJoin(xs: seq<string>)
    requires |xs| > 0
    requires forall k :: 0 <= k < |xs| ==> ',' !in xs[k]
    ensures SplitList(Join(xs, ListSeparator)) == xs
    decreases |xs|
  {
    if |xs| == 1 {
      assert Seqs.IndexOf(xs[0], ',') == -1;
    } else {
      SplitListStep(xs[0], Join(xs[1..], ListSeparator));
      SplitJoin(xs[1..]);
      assert [xs[0]] + xs[1..] == xs;
    }
  }

  /** One cut: a comma-free first item, the separator, and the rest of the string. */
  lemma SplitListStep(first: string, rest: string)
    requires ',' !in first
    ensures SplitList(first + ", " + rest) == [first] + SplitList(rest)
  {
    var s := first + ", " + rest;
    assert s == first + (", " + rest);
    Seqs.IndexOfAppend(first, ", " + rest, ',');
    assert Seqs.IndexOf(", " + rest, ',') == 0;
    var i := |first|;
    assert Seqs.IndexOf(s, ',') == i;
    assert s[..i] == first;
    assert s[i + 1] == ' ';
    assert s[i + 2..] == rest;
  }

  predicate IsDigit(c: char) {
    '0' <= c <= '9'
  }

  function DigitValue(c: char): (d: nat)
    requires IsDigit(c)
    ensures d < 10
  {
    c as int - '0' as int
  }

  function DigitChar(d: nat): (c: char)
    requires d < 10
    ensures IsDigit(c)
  {
    (('0' as int) + d) as char
  }

  /** The decimal numeral of `n`, as JavaScript writes a non-negative integer: no leading zeros. */
  function NatToString(n: nat): (s: string)
    ensures |s| > 0
    ensures forall k :: 0 <= k < |s| ==> IsDigit(s[k])
    ensures |s| > 1 ==> s[0] != '0'
  {
    if n < 10 then [DigitChar(n)]
    else NatToString(n / 10) + [DigitChar(n % 10)]
  }

  /** The value of a string of decimal digits, most significant first. */
  function DecimalValue(s: string): nat
    requires forall k :: 0 <= k < |s| ==> IsDigit(s[k])
  {
    if |s| == 0 then 0
    else DecimalValue(s[..|s| - 1]) * 10 + DigitValue(s[|s| - 1])
  }

  /** The longest prefix of `s` made of digits. */
  function LeadingDigits(s: string): (r: string)
    ensures |r| <= |s| && r == s[..|r|]
    ensures forall k :: 0 <= k < |r| ==> IsDigit(r[k])
    ensures |r| < |s| ==> !IsDigit(s[|r|])
  {
    if |s| == 0 || !IsDigit(s[0]) then ""
    else [s[0]] + LeadingDigits(s[1..])
  }

  /** Reading the numeral back gives the number. */
  lemma {:induction false} DecimalRoundTrip(n: nat)
    ensures DecimalValue(NatToString(n)) == n
  {
    if n >= 10 {
      DecimalRoundTrip(n / 10);
      var s := NatToString(n);
      assert s[..|s| - 1] == NatToString(n / 10);
    }
  }

  /** A numeral followed by a non-digit is read back as that numeral. */
  lemma {:induction false} LeadingNumeral(n: nat, tail: string)
    requires |tail| > 0 && !IsDigit(tail[0])
    ensures LeadingDigits(NatToString(n) + tail) == NatToString(n)
    ensures DecimalValue(LeadingDigits(NatToString(n) + tail)) == n
  {
    LeadingDigitsPrefix(NatToString(n), tail);
    DecimalRoundTrip(n);
  }

  lemma {:induction false} LeadingDigitsPrefix(ds: string, tail: string)
    requires forall k :: 0 <= k < |ds| ==> IsDigit(ds[k])
    requires |tail| > 0 && !IsDigit(tail[0])
    ensures LeadingDigits(ds + tail) == ds
    decreases |ds|
  {
    if |ds| == 0 {
      assert ds + tail == tail;
    } else {
      assert (ds + tail)[1..] == ds[1..] + tail;
      LeadingDigitsPrefix(ds[1..], tail);
      assert [ds[0]] + ds[1..] == ds;
    }
  }
}
